=== FILE: README.md ===
# Service requests of the accounting portal, in Dafny

This project models the core of an accounting firm's client portal. It
covers the life of a **service request** (`ServiceRequest`):
- a client opens the request from a configured request type;
- a priced request first waits for payment, either by an uploaded proof that
  an admin confirms or by the bank's PIX webhook;
- the admin then takes it through resolution, and the client validates or
  reopens it;
- along the way the request collects chat messages and an append-only audit
  log, and can be moved to the bin and restored.

The model also covers the smaller pure parts of the admin screens:
- category and request-type settings;
- the communication centre (notices to one client or to all of them);
- the monthly-routine filter;
- the dashboard's status histogram.

Module layout, following the program's files:

| module (file) | models |
|---|---|
| `Collections` (collections.dfy) | `Option`/`Result`, order-keeping filter, first-match search, replace-where, descending sort |
| `Types` (types.dfy) | the records and enumerations of `types.ts` |
| `Text` (text.dfy) | JavaScript `trim`, `toLowerCase` and `includes` |
| `MockStore` (mock_store.dfy) | the in-memory store of `services/mockData.ts` |
| `RequestManager` (request_manager.dfy) | the handlers, button gates and list of `components/RequestManager.tsx` |
| `Settings` (settings.dfy) | `components/SettingsManager.tsx` |
| `Communication` (communication.dfy) | `components/CommunicationCenter.tsx` |
| `Routines` (routines.dfy) | `components/MonthlyRoutines.tsx` |
| `Dashboard` (dashboard.dfy) | the status chart of `components/DashboardAdmin.tsx` |

Conventions:
- **Store functions.** Each store function is a pure function from the old
  store contents to the new ones.
- **Handlers.** Each screen handler is a pure function from the request to
  its new value.
- **Button gates.** The JSX conditions that show or hide a button become
  predicates. `RequestManager.Allowed(role, deleted, status, target)` is the
  workflow gate.
- **Events.** `RequestManager.Apply` combines handlers and gates into one step
  of a request's life. A `RequestManager.Step` pairs an event with the acting
  user and its tick. `RequestManager.Run` folds a sequence of steps.
- **Workflow table.** The constant `RequestManager.WorkflowTable` lists the
  detail panel's workflow buttons (components/RequestManager.tsx:413-443) as
  (role, from, to) triples. `RequestManager.Allowed` is proved equal to
  membership in it, both ways.
- **Environment values as parameters.** `Date.now()` ids and instants are a
  `Tick(id, now)`. Random protocols and txids are strings. Per-notice fresh
  ids are an `idFor: nat -> string` function. The `confirm` dialogs are a
  boolean.

The store's `find` returns the first entry with an id. `updateServiceRequest`
writes to every entry with that id. The model keeps both. Lemmas then show
that with unique ids exactly one slot changes.

## Model

| member | source | states |
|---|---|---|
| MockStore.FindById | services/mockData.ts:205 | the index found holds the id, no earlier entry holds it, and None exactly when no entry holds it |
| MockStore.FilterListed | services/mockData.ts:174-176 | keeps each request exactly as often as the store has it when it passes the company filter (a missing or empty company id means no filter) and the deleted filter, and drops it otherwise |
| MockStore.GetServiceRequests | services/mockData.ts:173-178 | every result is in the given company (unless none given) and not deleted (unless `includeDeleted`); the result is a permutation of the matching requests, ordered by `updatedAt` non-increasing |
| MockStore.GetServiceRequestsMembers | services/mockData.ts:173-178 | a request is listed iff it is in the store and passes both filters |
| MockStore.GetDeletedServiceRequests | services/mockData.ts:180 | exactly the deleted requests, each with its multiplicity |
| MockStore.DeletedKeepStoreOrder | services/mockData.ts:180 | the bin keeps store order: listing a concatenation is concatenating the listings |
| MockStore.CreatorName | services/mockData.ts:187-193 | the creator's name is never empty, and is 'Cliente' when no user has the client id |
| MockStore.NotifyEach | services/mockData.ts:188-197 | each target gets one unread notice with the title and message, put in front of the list one at a time (last target first); the old list follows unchanged |
| MockStore.AddServiceRequest | services/mockData.ts:182-198 | the request goes first before the unchanged old list; every admin gets exactly one 'Nova Solicitação' notice naming the protocol and creator; users and payment settings are unchanged |
| MockStore.UpdateServiceRequest | services/mockData.ts:200-202 | the length is kept; every entry with the id becomes the new request and all others stay |
| MockStore.UpdateUnknownIdIsNoOp | services/mockData.ts:200-202 | an id the store does not hold changes nothing |
| MockStore.UpdateReplacesOnlyThatEntry | services/mockData.ts:200-202 | with unique ids, exactly the slot with that id changes, and ids stay unique |
| MockStore.WithDeletedFlag | services/mockData.ts:206-209 | the flag is set, exactly one trash entry is appended to the log, and nothing else changes |
| MockStore.ModifyById | services/mockData.ts:205-210 | an unknown id changes nothing; entries with other ids stay; entries with the id become the changed first match |
| MockStore.SoftDeleteServiceRequest | services/mockData.ts:204-211 | an unknown id changes nothing; others stay; the entry with the id becomes the first match marked deleted, with one 'Enviado para Lixeira' entry appended and chat and everything else unchanged |
| MockStore.ModifyAt | services/mockData.ts:200-220 | with unique ids, changing the request with a stored id is a change of that one slot, and ids stay unique |
| MockStore.RestoreServiceRequest | services/mockData.ts:213-220 | as soft delete, with the flag cleared and one 'Restaurado da Lixeira' entry |
| MockStore.FindByIdUnique | services/mockData.ts:205 | with unique ids, the lookup of an entry's id finds that entry |
| MockStore.SoftDeleteTwiceLogsTwice | services/mockData.ts:204-211 | soft delete is not idempotent: deleting twice leaves two trash entries in the log |
| MockStore.DeleteThenRestore | services/mockData.ts:204-220 | delete then restore gives the request back, not deleted and visible in the default listing, with exactly the two trash entries added; the other requests are untouched |
| MockStore.AddRequestMessage | services/mockData.ts:222-225 | exactly one message is appended to the chat of the request; its audit log, status and all else stay; an unknown id changes nothing |
| MockStore.WithCharge | services/mockData.ts:88-99 | attaching a charge keeps the id, status and payment status, and changes only txid, copy-and-paste code, expiry and log |
| MockStore.AttachChargeAttaches | services/mockData.ts:87-100 | writing a charge back sets txid, code and an expiry 60 minutes ahead on every entry with the id, appends one 'Sistema' entry and leaves every other field of the found request as it was; with an unknown id nothing changes |
| MockStore.GeneratePixCharge | services/mockData.ts:71-104 | fails with 'Configuração de pagamento incompleta.' exactly when the configuration check at line 76 (`PaymentConfigured`: a non-empty client id and an uploaded certificate) does not hold, changing nothing; otherwise returns the charge and changes only the requests: the found request gets the charge fields and one log entry, every other field and every other request as it was |
| MockStore.PixPayload | services/mockData.ts:84 | the copy-and-paste code ends with the transaction id, so the txid can be read back from it |
| MockStore.WebhookConfirmed | services/mockData.ts:110-117 | the confirmed request is 'Solicitada' with payment 'Aprovado' and one 'Banco Inter API' entry appended; nothing else changes |
| MockStore.WebhookApplies | services/mockData.ts:108-109 | the webhook acts exactly when some request carries the txid, is in 'Pendente Pagamento', and no earlier request carries that txid |
| MockStore.WebhookPayment | services/mockData.ts:107-136 | answers true iff the first request with the txid awaits payment; when it does not, nothing changes; when it does, that request is confirmed and written back |
| MockStore.ConfirmPaid | services/mockData.ts:110-132 | the confirmed request is written back and every admin gets one unread 'Pagamento PIX Recebido' notice naming the protocol; users and payment settings are unchanged |
| MockStore.ConfirmedIsFirstWithTxid | services/mockData.ts:108-109 | after a webhook that acted, the first request with the txid is the confirmed one, no longer awaiting payment |
| MockStore.WrittenBackIsFirstWithTxid | services/mockData.ts:108-132 | writing back a request under the id of the first one with a txid, keeping that txid, makes it the first one with that txid |
| MockStore.WebhookIdempotent | services/mockData.ts:107-136 | a second delivery of the same webhook answers false and changes nothing |
| MockStore.WebhookUnknownTxid | services/mockData.ts:108-109 | a txid no request carries changes nothing |
| MockStore.SimulateWebhookPayment | services/mockData.ts:107-136 | the webhook as written: answers true iff it applies and changes nothing otherwise; when it acts, the request is confirmed and written back |
| MockStore.WebhookFansOut | services/mockData.ts:120-130 | a webhook that acts notifies every admin exactly once, in store order, with the payment message |
| MockStore.SimulateFansOut | services/mockData.ts:120-130 | as written, all those notices get the one id `Date.now()` |
| MockStore.SharedNoticeIdMarksOtherAdmin | services/mockData.ts:120-130 | with two admins, the notices to the first two admins share an id |
| MockStore.MarkReadSharedId | services/mockData.ts:233 | marking a notice read also marks another notice read exactly when it shares the id |
| MockStore.NoticeOwners | services/mockData.ts:121-129 | the notices for the first two targets of a fan-out are theirs, unread, with the ids the id source gave |
| MockStore.NoticeIdsApart | services/mockData.ts:188-190 | with an injective id source, two notices of one fan-out have different ids |
| MockStore.DistinctNoticeIdsKeepAdminsApart | services/mockData.ts:120-130 | with distinct ids per notice, no two admins' payment notices share an id, and both are unread |
| MockStore.GetNotifications | services/mockData.ts:228 | only that user's notifications, each as often as stored, newest first |
| MockStore.AddNotification | services/mockData.ts:230 | the new notification goes first, before the unchanged list |
| MockStore.MarkNotificationRead | services/mockData.ts:233 | exactly the notifications with that id become read; the others stay |
| MockStore.MarkNotificationReadIdempotent | services/mockData.ts:233 | marking twice is marking once |
| MockStore.UpdateNotification | services/mockData.ts:231 | every notification with the id becomes the new one; the others stay |
| MockStore.DeleteNotification | services/mockData.ts:232 | no result has the id; every other notification stays with its multiplicity |
| MockStore.AddCategory | services/mockData.ts:140 | a listed name changes nothing; a new name is appended; the names afterwards are the old ones plus this one |
| MockStore.DeleteCategory | services/mockData.ts:141 | the name is gone and every other name stays with its multiplicity |
| MockStore.AddRequestType | services/mockData.ts:145 | exactly the new type is appended after the unchanged list |
| MockStore.DeleteRequestType | services/mockData.ts:146 | no type with the id remains; every other type stays with its multiplicity |
| MockStore.DeleteRequestTypeOne | services/mockData.ts:146 | a single type is dropped exactly when it has the id |
| MockStore.DeleteRequestTypeKeepsOrder | services/mockData.ts:146 | the remaining types keep their order: deleting from two parts one after the other is deleting from the whole |
| RequestManager.FindType | components/RequestManager.tsx:53 | the found type has the chosen id, no earlier one has it, and None exactly when none has it |
| RequestManager.HandleCreate | components/RequestManager.tsx:51-74 | nothing is created iff no type has the id; otherwise price and type name come from the first matching type; price > 0 gives 'Pendente Pagamento'/'Pendente', otherwise 'Solicitada'/'N/A'; not deleted, empty chat, exactly one 'Solicitação Criada' entry by the creator |
| RequestManager.SubmitRequest | components/RequestManager.tsx:51-79 | an unknown type leaves the store as it was; otherwise the new request is first, with one creation entry and a consistent payment state |
| RequestManager.UpdateStatus | components/RequestManager.tsx:81-95 | only status and update time change, and exactly one 'Status alterado para ...' entry is appended |
| RequestManager.PaymentProofUpload | components/RequestManager.tsx:97-114 | the request goes to 'Pagamento em Análise'/'Em Análise' with the proof file and one 'Comprovante Enviado' entry; nothing else changes |
| RequestManager.ConfirmPayment | components/RequestManager.tsx:116-128 | the request goes to 'Solicitada'/'Aprovado' with one admin entry; nothing else changes |
| RequestManager.OpenRequest | components/RequestManager.tsx:159-169 | an admin opening a 'Solicitada' request makes it 'Visualizada' with one entry; any other role or status leaves it unchanged |
| RequestManager.SendMsg | components/RequestManager.tsx:143-157 | whitespace-only input is ignored; otherwise exactly one message with the sender's role is appended and nothing else changes |
| RequestManager.CanPay | components/RequestManager.tsx:389 | whenever 'Pagar Agora' is offered, no workflow button is |
| RequestManager.CanConfirmPayment | components/RequestManager.tsx:395 | whenever 'Confirmar Pagamento' is offered, no workflow button is |
| RequestManager.Allowed | components/RequestManager.tsx:413-443 | a workflow button is shown iff the request is not deleted and (role, from, to) is one of the five workflow transitions |
| RequestManager.Apply | components/RequestManager.tsx:81-443 | the handlers (81-169), the list's bin and restore buttons (244-266) and the detail panel's payment and workflow buttons (380-443) as one step: no event changes id, price or creation time; the audit log and chat only grow; the log gains at most one entry, and exactly one whenever the status changes |
| RequestManager.StatusEventsKeepPaymentConsistent | components/RequestManager.tsx:81-128 | opening, the workflow buttons, the proof upload and the admin's confirmation keep the payment invariant |
| RequestManager.StoreEventsKeepPaymentConsistent | services/mockData.ts:88-117 | attaching a PIX charge and the bank's webhook keep the payment invariant |
| RequestManager.EditEventsKeepPaymentConsistent | services/mockData.ts:204-220 | trash, restore and chat keep the payment invariant |
| RequestManager.ResolvedOnlyFromValidation | components/RequestManager.tsx:435-436 | only a client approving a request in 'Em Validação' makes it 'Resolvido' |
| RequestManager.ReviewOnlyFromProofUpload | components/RequestManager.tsx:389-393 | a request enters 'Pagamento em Análise' only by the client's proof upload, from 'Pendente Pagamento', on a priced request |
| RequestManager.ReviewLeftOnlyByAdminConfirm | components/RequestManager.tsx:395-403 | a request leaves 'Pagamento em Análise' only by the admin's 'Confirmar Pagamento', on a priced request |
| RequestManager.ApprovedOnlyByConfirmation | components/RequestManager.tsx:395-403 | a payment becomes 'Aprovado' only by the admin confirming a proof under review, or by the bank's webhook on a request awaiting payment that carries a txid (services/mockData.ts:108 finds the request by txid) |
| RequestManager.WorkflowLockedWhileDeletedOrUnpaid | components/RequestManager.tsx:413-425 | no workflow move for a deleted request or one awaiting payment; an admin never resolves directly |
| RequestManager.ApplyKeepsPaymentConsistent | components/RequestManager.tsx:380-405 | every event keeps the payment invariant |
| RequestManager.ResolvedReachedThroughValidation | components/RequestManager.tsx:413-443 | along any run, a request that ends 'Resolvido' is first resolved by the client's 'Aprovar e Finalizar' on a request in 'Em Validação': no earlier prefix of the run leaves it resolved |
| RequestManager.FirstResolved | components/RequestManager.tsx:413-443 | the shortest prefix of a run after which the request is resolved: it is resolved there and at no shorter prefix |
| RequestManager.RunOnlyAppends | components/RequestManager.tsx:81-169 | along any run the audit log and chat only grow, by at most one entry per step |
| RequestManager.Run | components/RequestManager.tsx:81-169 | a sequence of events applied in order never changes a request's id, price or creation time |
| RequestManager.RunKeepsPaymentConsistent | components/RequestManager.tsx:56-66 | the payment invariant established at creation holds after any run |
| RequestManager.FreeRequestNeverAwaitsPayment | components/RequestManager.tsx:56-66 | a request created free never reaches a payment state and keeps payment 'N/A' |
| RequestManager.CompanyScope | components/RequestManager.tsx:44-45 | a client is always scoped to the current company id the screen was given, whatever it is; the listing is unscoped exactly for an admin who selected 'all' |
| RequestManager.SearchMatches | components/RequestManager.tsx:187-188 | an empty search matches every request |
| RequestManager.SearchIgnoresCaseOfText | components/RequestManager.tsx:187-188 | searching for a text or for its lower-cased form gives the same answer |
| RequestManager.ActiveRequests | components/RequestManager.tsx:45 | the loaded active list holds only non-deleted store requests, and only those of the scoped company when the scope is a non-empty id |
| RequestManager.ActiveRequestsFromStore | components/RequestManager.tsx:45 | every loaded request comes from the store |
| RequestManager.Loaded | components/RequestManager.tsx:44-49 | the active view holds non-deleted requests, and for a client only those of the current company id when that id is non-empty (an empty id applies no filter); the bin holds deleted ones and is empty for a client |
| RequestManager.FilteredList | components/RequestManager.tsx:184-189 | a loaded request is rendered iff its lowercased title or protocol contains the lowercased search text |
| RequestManager.EmptySearchShowsEverything | components/RequestManager.tsx:186-189 | with an empty search the active list is the store's listing |
| Text.LeadingSpace | components/SettingsManager.tsx:38 | the count of leading whitespace: all of it is whitespace and the next character is not |
| Text.TrailingSpace | components/SettingsManager.tsx:38 | the same at the end of the string |
| Text.Trim | components/SettingsManager.tsx:38-39 | the result is a slice of the input with only whitespace cut on both sides, and starts and ends with non-whitespace |
| Text.IsSpace | components/SettingsManager.tsx:38 | the white-space set `trim` strips; no letter or digit is in it |
| Text.TrimEmptyIffAllSpace | components/RequestManager.tsx:144 | trimming gives the empty string iff the input is all whitespace |
| Text.TrimIdempotent | components/SettingsManager.tsx:39 | trimming twice is trimming once |
| Text.Lower | components/RequestManager.tsx:187 | lower-casing maps each character and keeps the length |
| Text.LowerChar | components/RequestManager.tsx:187-188 | the result is never an ASCII or Latin-1 capital, and ASCII capitals, and only they, become different lower-case ASCII letters |
| Text.LowerIdempotent | components/RequestManager.tsx:187 | lower-casing twice is lower-casing once |
| Text.ContainsIffOccurs | components/RequestManager.tsx:187-188 | `includes` holds iff the needle occurs at some position |
| Text.ContainsEmpty | components/MonthlyRoutines.tsx:17-18 | every string includes the empty string |
| Text.MatchesIgnoringCase | components/MonthlyRoutines.tsx:17-18 | an empty search text matches any string |
| Text.MatchesIgnoringCaseOfLower | components/MonthlyRoutines.tsx:17-18 | lower-casing the search text first does not change the match |
| Settings.HandleAddCategory | components/SettingsManager.tsx:37-43 | blank input changes nothing; otherwise the trimmed, non-empty name is listed, nothing else is added, the old list is a prefix, at most one name is added, and no duplicate appears |
| Settings.HandleAddCategoryIdempotent | services/mockData.ts:140 | adding the same input twice is adding it once |
| Settings.HandleDeleteCategory | components/SettingsManager.tsx:44-49 | without confirmation nothing changes; with it exactly that name is removed |
| Settings.ApplyCategoryAction | components/SettingsManager.tsx:104-122 | one add or confirmed delete through the screen keeps every protected category and a duplicate-free list duplicate-free, and adds at most one name |
| Settings.ApplyCategoryActions | components/SettingsManager.tsx:104-122 | a sequence of screen actions adds at most one category per action |
| Settings.CategoriesKeepProtectedAndUnique | components/SettingsManager.tsx:116-122 | the delete button is offered only for names outside the six protected categories (`CanDeleteCategory`), so through the screen's add and delete controls the protected categories are never removed and no name is ever listed twice |
| Settings.FilterNoDuplicates | services/mockData.ts:141 | removing names keeps a list free of duplicates |
| Settings.InitialCategoriesProtected | services/mockData.ts:5 | the initial categories contain every protected one, once |
| Settings.HandleAddRequestType | components/SettingsManager.tsx:52-63 | a blank name changes nothing; otherwise exactly one type with the trimmed name, the entered price and the new id is appended |
| Settings.AddedTypeCanBeRequested | components/SettingsManager.tsx:52-63 | a request can be created with a type just added, and with a new id it carries the entered price |
| Settings.HandleDeleteRequestType | components/SettingsManager.tsx:64-69 | without confirmation nothing changes; with it exactly the types with the id go and the rest keep their multiplicity |
| Settings.HandleDeleteRequestTypeKeepsOrder | components/SettingsManager.tsx:64-69 | the confirmed deletion keeps the remaining types in catalogue order |
| Settings.DeletedTypeCannotBeRequested | components/SettingsManager.tsx:64-69 | after deleting a type no request can be created with it |
| Settings.HandlePaymentSave | components/SettingsManager.tsx:72-76 | the edited configuration replaces the stored one whole and nothing else changes |
| Settings.SetCertificate | components/SettingsManager.tsx:237-246 | the certificate controls change only the uploaded flag |
| Settings.CertificateDecidesCharges | services/mockData.ts:76-78 | after removing the certificate no PIX charge can be made; with a client id and the certificate back, one can |
| Communication.ClientUsers | components/CommunicationCenter.tsx:25 | exactly the client users |
| Communication.HandleSend | components/CommunicationCenter.tsx:35-64 | an empty title or message sends nothing; 'all' sends each client one unread notice; otherwise one unread notice with the title and message goes to the chosen user |
| Communication.NoticeOwner | components/CommunicationCenter.tsx:39-48 | the j-th recipient's notice is addressed to them |
| Communication.FanOutCovers | components/CommunicationCenter.tsx:39-48 | every recipient of a fan-out is addressed by one of the new notices |
| Communication.BroadcastReachesExactlyTheClients | components/CommunicationCenter.tsx:38-48 | a broadcast's new notices go only to clients, and every client gets one |
| Communication.SaveEdit | components/CommunicationCenter.tsx:71-78 | an id missing from the history changes nothing; other notices stay; notices with the id become the history's copy with the new title and message |
| Communication.SaveEditChangesOnlyText | components/CommunicationCenter.tsx:71-78 | with a fresh history and unique ids, editing changes exactly the title and message of that one notice |
| Communication.DeleteNotif | components/CommunicationCenter.tsx:85-90 | without confirmation nothing changes; with it exactly the notices with the id go |
| Communication.GetUserName | components/CommunicationCenter.tsx:92-95 | 'Usuário Removido' when no client has the id, otherwise the name of a client with it |
| Routines.FilteredRoutines | components/MonthlyRoutines.tsx:14-20 | a routine is kept iff department, status and text all match, each as often as on the board |
| Routines.FilteredRoutinesKeepOrder | components/MonthlyRoutines.tsx:14-20 | the filter keeps board order |
| Routines.DefaultsAcceptAll | components/MonthlyRoutines.tsx:7-9 | the initial selections accept any routine |
| Routines.DefaultsShowEverything | components/MonthlyRoutines.tsx:7-20 | with the initial selections the whole board is shown |
| Routines.StatusColor | components/MonthlyRoutines.tsx:22-29 | always one of the four badge classes |
| Routines.StatusColorsDistinguish | components/MonthlyRoutines.tsx:22-29 | 'Concluído', 'Atrasado' and 'Pendente' get three different badges, and exactly the other statuses get the blue one |
| Dashboard.TotalUpdate | components/DashboardAdmin.tsx:10 | changing one slice changes the total by the difference |
| Dashboard.TotalAppend | components/DashboardAdmin.tsx:10 | adding a slice adds its value to the total |
| Dashboard.Bump | components/DashboardAdmin.tsx:10 | an existing status's count grows by one in place, a new status is added last with count 1, names stay distinct, and the total grows by one |
| Dashboard.NamedAfterUpdate | components/DashboardAdmin.tsx:10 | incrementing an existing key keeps the set of keys |
| Dashboard.NamedAfterAppend | components/DashboardAdmin.tsx:10 | adding a new key adds exactly that key |
| Dashboard.StatusCounts | components/DashboardAdmin.tsx:9-12 | one entry per status present, each holding that status's count (at least 1); the counts sum to the number of routines; the keys are in order of first appearance, measured by the independent `FirstAt` position of each status among the routines |
| Dashboard.Count | components/DashboardAdmin.tsx:9-12 | the independent reference count of routines with a status, never more than the number of routines |
| Dashboard.CountsStep | components/DashboardAdmin.tsx:9-12 | one step of the reduce: counts that are right for all routines but the last become right for all once the last one's status is bumped |
| Dashboard.CountPositiveIffPresent | components/DashboardAdmin.tsx:9-12 | a status has a positive count iff some routine has it |
| Dashboard.OrderStep | components/DashboardAdmin.tsx:9-12 | one step of the reduce keeps the keys in order of first appearance: a status already counted first appeared before the last routine, and a new status goes last |
| Dashboard.Keys | components/DashboardAdmin.tsx:14 | the keys, one per entry, in entry order |
| Dashboard.PieData | components/DashboardAdmin.tsx:14-17 | one pie entry per key |
| Dashboard.LookupFindsSlice | components/DashboardAdmin.tsx:16 | reading a key back gives its own count, because keys are distinct |
| Dashboard.PieDataSummarisesRoutines | components/DashboardAdmin.tsx:14-17 | the pie has one entry per distinct status with that status's count, in order of first appearance, which fixes each slice's colour (lines 103-105), and the values sum to the number of routines |
| Dashboard.CellColor | components/DashboardAdmin.tsx:103-105 | always a palette colour |
| Dashboard.CellColorCycles | components/DashboardAdmin.tsx:19 | the palette repeats every four slices and neighbouring slices differ |

## Left out

- `maatcontabil_webhook/server.js`: Express routes, SQL, Banco Inter OAuth over mutual TLS and certificate files are network, database and filesystem I/O.
- `services/dbService.ts`: localStorage and fetch plumbing.
- `App.tsx` and `components/NotificationPage.tsx`: routing and expand/collapse state. Read-marking is `MockStore.MarkNotificationRead`.
- The current company id is a parameter of `RequestManager.CompanyScope` and `RequestManager.Loaded`, not tied to the client's own company. `App.tsx` copies a client's `companyId` into it only when that id is non-empty; otherwise the previous value ('c1' or an admin's choice) stays.
- JSX rendering, CSS classes, `alert` calls and React state setters. Only the gating conditions remain, as predicates. A `confirm` dialog is a boolean parameter.
- `setTimeout` and the Promise in `generatePixCharge`: modelled as one synchronous step. The `amount` argument is unused by the source and is dropped.
- `Date.now()`, `Math.random()` and ISO timestamp strings: taken as parameters. Timestamps are integers of milliseconds, so `pixExpiration` is `now + 3600000`.
- Prices are integers rather than JavaScript floats. Only `price > 0` matters to the logic.
- The shallow copies in the handlers push into the original request's `auditLog` array. This aliasing is modelled as a pure append on the new record.
- The status colour of `components/RequestManager.tsx` (171-182) is CSS only.
- Hard-coded dashboard figures, KPI numbers, employee and client seed data are left out. The seed requests and users are also left out; the store contents are parameters.
- `getCompanies`, `addUser` and the other company, user and document store functions are not part of this core.
- The screen never calls `generatePixCharge` or `simulateWebhookPayment`: its payment modal shows a fixed code. `RequestManager.Apply` still includes the `PixCharge` and `WebhookPaid` events, so that the invariants cover those paths too.
- A client's bin: `refreshData` loads the bin only for admins, and the bin state starts empty. `RequestManager.Loaded` gives the empty list for a client and ignores stale state left from an earlier admin role.
- `MockStore.GetServiceRequests`: does not state that the sort is stable for equal `updatedAt`. Nor does it model that `sort` reorders the store array itself when no filter copied it.
- `MockStore.GetNotifications`: does not state that the sort is stable for equal timestamps.
- `MockStore.CreatorName`: states the fallback, not which non-empty name is used.
- `Communication.GetUserName`: states that the name is that of some client with the id, not that it is the first one.
- `Text.Lower`: lower-cases ASCII and Latin-1 capitals only; the rest of Unicode case mapping is not modelled.
- `Dashboard.StatusCounts`: every status is counted as an ordinary key, in insertion order. The source folds into a plain `{}` and `Routine.status` is an open string, so three JavaScript behaviours are not modelled. Integer-like status strings are listed first by `Object.keys`. A status `"__proto__"` is never stored as a key. A status that names another `Object.prototype` member, such as `"constructor"` or `"toString"`, gets a string value rather than a count, because the inherited function is truthy and `+ 1` concatenates.
- `Dashboard.PieData`: its own contract gives only the length; the per-entry content is stated by `Dashboard.PieDataSummarisesRoutines`.

## Findings

| source | as written | input that shows it | evidently intended | confidence | as-written member | corrected member |
|---|---|---|---|---|---|---|
| services/mockData.ts:120-130 | every admin notice of the payment webhook gets the same id, `Date.now().toString()`, and `markNotificationRead` (services/mockData.ts:233) marks every notice with that id | a store with two admins and a request in 'Pendente Pagamento' with txid T; call the webhook with T. Both admins' notices share one id, so the first admin opening theirs marks the second admin's notice read too | one id per notice, as `addServiceRequest` draws with `Date.now().toString() + Math.random()` (services/mockData.ts:190) | medium; not executed | MockStore.SharedNoticeIdMarksOtherAdmin | MockStore.DistinctNoticeIdsKeepAdminsApart |

The as-written webhook is `MockStore.SimulateWebhookPayment`, whose id source is constant.
The corrected one is `MockStore.WebhookPayment`, with an injective id source.
Together with `MockStore.MarkReadSharedId`, the first lemma shows the discrepancy and the second shows that it disappears.

=== FILE: collections.dfy ===
/** Generic sequence operations that the portal's store and screens are built
    from: JavaScript's `Array.prototype.filter`, `find`, `map` with a
    replacement, a stable sort on an integer key, and prepending one element
    at a time. */
module Collections {

  datatype Option<T> = None | Some(value: T)

  /** Success carries a value, failure carries the message the source throws. */
  datatype Result<T> = Ok(value: T) | Err(error: string)

  /** `s.filter(keep)`: keeps the elements `keep` accepts, in their order. */
  function Filter<T(!new)>(s: seq<T>, keep: T -> bool): (r: seq<T>)
    ensures |r| <= |s|
    ensures forall i :: 0 <= i < |r| ==> keep(r[i])
    ensures forall x {:trigger multiset(r)[x]} :: multiset(r)[x] == if keep(x) then multiset(s)[x] else 0
    ensures forall x {:trigger x in r} :: x in r <==> x in s && keep(x)
  {
    if s == [] then []
    else
      var rest := Filter(s[1..], keep);
      assert s == [s[0]] + s[1..];
      if keep(s[0]) then [s[0]] + rest else rest
  }

  /** Filtering a concatenation filters each part: the result keeps the
      input's order. */
  lemma {:induction false} FilterConcat<T(!new)>(a: seq<T>, b: seq<T>, keep: T -> bool)
    ensures Filter(a + b, keep) == Filter(a, keep) + Filter(b, keep)
  {
    if a == [] {
      assert a + b == b;
    } else {
      assert (a + b)[1..] == a[1..] + b;
      FilterConcat(a[1..], b, keep);
    }
  }

  /** A filter that accepts every element is the identity. */
  lemma {:induction false} FilterAll<T(!new)>(s: seq<T>, keep: T -> bool)
    requires forall i :: 0 <= i < |s| ==> keep(s[i])
    ensures Filter(s, keep) == s
  {
    if s != [] {
      FilterAll(s[1..], keep);
    }
  }

  /** Index of the first element `p` accepts: `s.findIndex(p)`, or `None`
      for JavaScript's `-1`. */
  function FindIndex<T>(s: seq<T>, p: T -> bool): (r: Option<nat>)
    ensures r.Some? ==> r.value < |s| && p(s[r.value])
    ensures r.Some? ==> forall j :: 0 <= j < r.value ==> !p(s[j])
    ensures r.None? <==> forall j :: 0 <= j < |s| ==> !p(s[j])
  {
    if s == [] then None
    else if p(s[0]) then Some(0)
    else match FindIndex(s[1..], p)
      case None => None
      case Some(k) => Some(k + 1)
  }

  /** An element `p` accepts bounds the first one it accepts. */
  lemma FindIndexAtMost<T>(s: seq<T>, p: T -> bool, k: nat)
    requires k < |s| && p(s[k])
    ensures FindIndex(s, p).Some? && FindIndex(s, p).value <= k
  {
  }

  /** Overwriting the first element `p` accepts, and possibly others, with
      an accepted `c` keeps `c` the first accepted element. */
  lemma FirstAfterOverwrite<T>(s: seq<T>, s': seq<T>, p: T -> bool, k: nat, c: T)
    requires FindIndex(s, p) == Some(k)
    requires |s'| == |s| && s'[k] == c && p(c)
    requires forall i :: 0 <= i < |s| ==> s'[i] == s[i] || s'[i] == c
    ensures FindIndex(s', p).Some? && s'[FindIndex(s', p).value] == c
  {
    FindIndexAtMost(s', p, k);
    var j := FindIndex(s', p).value;
    if j < k {
      assert !p(s[j]);
      assert s'[j] == c;
    } else {
      assert j == k;
    }
  }

  /** `s.map(x => p(x) ? f(x) : x)`: every element `p` accepts is replaced. */
  function ReplaceWhere<T>(s: seq<T>, p: T -> bool, f: T -> T): (r: seq<T>)
    ensures |r| == |s|
    ensures forall i :: 0 <= i < |s| ==> r[i] == if p(s[i]) then f(s[i]) else s[i]
  {
    if s == [] then [] else [if p(s[0]) then f(s[0]) else s[0]] + ReplaceWhere(s[1..], p, f)
  }

  /** Nothing `p` accepts means nothing is replaced. */
  lemma ReplaceWhereNone<T>(s: seq<T>, p: T -> bool, f: T -> T)
    requires forall i :: 0 <= i < |s| ==> !p(s[i])
    ensures ReplaceWhere(s, p, f) == s
  {
  }

  /** `items.forEach(x => store = [x, ...store])`: each item is put in
      front in turn, so the last one ends up first. */
  function PrependEach<T>(store: seq<T>, items: seq<T>): (r: seq<T>)
    ensures |r| == |store| + |items|
    ensures forall k :: 0 <= k < |store| ==> r[|items| + k] == store[k]
    ensures forall j :: 0 <= j < |items| ==> r[|items| - 1 - j] == items[j]
    decreases |items|
  {
    if items == [] then store
    else
      var front := [items[0]] + store;
      var r := PrependEach(front, items[1..]);
      assert r[|items| - 1 + 0] == front[0];
      forall k | 0 <= k < |store| ensures r[|items| + k] == store[k] {
        assert r[|items| - 1 + (k + 1)] == front[k + 1];
      }
      r
  }

  ghost predicate SortedDesc<T>(s: seq<T>, key: T -> int)
  {
    forall i, j :: 0 <= i < j < |s| ==> key(s[i]) >= key(s[j])
  }

  /** Putting an element in front of a sorted sequence whose first key it
      does not undercut keeps the sequence sorted. */
  lemma ConsSortedDesc<T>(x: T, s: seq<T>, key: T -> int)
    requires SortedDesc(s, key)
    requires s != [] ==> key(x) >= key(s[0])
    ensures SortedDesc([x] + s, key)
  {
    var r := [x] + s;
    forall i, j | 0 <= i < j < |r| ensures key(r[i]) >= key(r[j]) {
      if i == 0 && j > 1 {
        assert key(s[0]) >= key(s[j - 1]);
      }
    }
  }

  /** Inserts `x` in front of the first element whose key is not greater
      than its own. */
  function InsertDesc<T>(x: T, s: seq<T>, key: T -> int): (r: seq<T>)
    requires SortedDesc(s, key)
    ensures SortedDesc(r, key)
    ensures multiset(r) == multiset(s) + multiset{x}
    ensures |r| == |s| + 1
    ensures key(r[0]) == key(x) || (s != [] && key(r[0]) == key(s[0]))
  {
    if s == [] || key(s[0]) <= key(x) then
      ConsSortedDesc(x, s, key);
      [x] + s
    else
      SortedDescTail(s, key);
      var rest := InsertDesc(x, s[1..], key);
      KeepHeadInFront(x, s, key, rest);
      [s[0]] + rest
  }

  /** When `x` goes behind the head, the head followed by the insertion into
      the tail is sorted and holds the same elements. */
  lemma KeepHeadInFront<T>(x: T, s: seq<T>, key: T -> int, rest: seq<T>)
    requires SortedDesc(s, key) && s != [] && key(s[0]) > key(x)
    requires SortedDesc(rest, key) && |rest| == |s|
    requires multiset(rest) == multiset(s[1..]) + multiset{x}
    requires key(rest[0]) == key(x) || (s[1..] != [] && key(rest[0]) == key(s[1..][0]))
    ensures SortedDesc([s[0]] + rest, key)
    ensures multiset([s[0]] + rest) == multiset(s) + multiset{x}
  {
    SortedDescTail(s, key);
    ConsSortedDesc(s[0], rest, key);
    assert multiset(s) == multiset{s[0]} + multiset(s[1..]) by { assert s == [s[0]] + s[1..]; }
  }

  /** The tail of a sorted sequence is sorted and starts no higher than it. */
  lemma SortedDescTail<T>(s: seq<T>, key: T -> int)
    requires SortedDesc(s, key) && s != []
    ensures SortedDesc(s[1..], key)
    ensures |s| > 1 ==> key(s[0]) >= key(s[1..][0])
  {
    forall i, j | 0 <= i < j < |s| - 1 ensures key(s[1..][i]) >= key(s[1..][j]) {
      assert s[1..][i] == s[i + 1] && s[1..][j] == s[j + 1];
    }
  }

  /** `s.sort((a, b) => key(b) - key(a))`: a stable sort into non-increasing
      key order (insertion sort, inserting from the back). */
  function SortDesc<T>(s: seq<T>, key: T -> int): (r: seq<T>)
    ensures SortedDesc(r, key)
    ensures multiset(r) == multiset(s)
    ensures |r| == |s|
  {
    if s == [] then []
    else
      assert s == [s[0]] + s[1..];
      InsertDesc(s[0], SortDesc(s[1..], key), key)
  }

  /** Sorting keeps exactly the elements it was given. */
  lemma SortDescSameElements<T>(s: seq<T>, key: T -> int, x: T)
    ensures x in SortDesc(s, key) <==> x in s
  {
    var r := SortDesc(s, key);
    assert x in r <==> multiset(r)[x] > 0;
    assert x in s <==> multiset(s)[x] > 0;
  }
}

=== FILE: communication.dfy ===
/** The admin's communication centre (`components/CommunicationCenter.tsx`):
    sending notices to one client or to every client, editing and deleting
    sent notices, and naming their recipients. `Date.now()` and
    `Math.random()` ids are parameters; the `confirm` dialog is a boolean. */
module Communication {
  import opened Collections
  import opened Types
  import MockStore

  function IsClient(u: User): bool
  {
    u.role == Client
  }

  /** The recipients the screen lists: the client users, in store order. */
  function ClientUsers(users: seq<User>): (r: seq<User>)
    ensures forall i :: 0 <= i < |r| ==> r[i].role == Client
    ensures forall u :: u in r <==> u in users && u.role == Client
  {
    Filter(users, IsClient)
  }

  /** The value of the recipient selector that means every client. */
  const AllClients: string := "all"

  /** `handleSend`. With an empty title or message nothing is sent. For
      'all', one notice per client is added, the i-th with id `idFor(i)`;
      otherwise one notice with id `t.id` for the chosen user. Every notice
      is unread and carries the entered title and message. */
  function HandleSend(ns: seq<Notification>, users: seq<User>, title: string, message: string,
                      target: string, idFor: nat -> string, t: Tick): (r: seq<Notification>)
    ensures title == "" || message == "" ==> r == ns
    ensures title != "" && message != "" && target == AllClients ==>
      MockStore.NoticePerTarget(ns, r, ClientUsers(users), title, message, idFor)
    ensures title != "" && message != "" && target != AllClients ==>
      && |r| == |ns| + 1 && r[1..] == ns
      && r[0].userId == target && r[0].id == t.id
      && r[0].title == title && r[0].message == message && !r[0].read
  {
    if title == "" || message == "" then ns
    else if target == AllClients then MockStore.NotifyEach(ns, ClientUsers(users), title, message, idFor, t.now)
    else MockStore.AddNotification(ns, Notification(t.id, target, title, message, false, t.now))
  }

  /** The notice a fan-out wrote for its j-th recipient. */
  lemma NoticeOwner(before: seq<Notification>, after: seq<Notification>, targets: seq<User>,
                    title: string, message: string, idFor: nat -> string, j: nat)
    requires MockStore.NoticePerTarget(before, after, targets, title, message, idFor)
    requires j < |targets|
    ensures after[|targets| - 1 - j].userId == targets[j].id
  {
  }

  /** Whether some client user has this id. */
  ghost predicate IsClientId(users: seq<User>, id: string)
  {
    exists u :: u in users && u.role == Client && u.id == id
  }

  /** Whether one of the first `k` notices is addressed to this id. */
  ghost predicate AddressedAmong(ns: seq<Notification>, k: nat, id: string)
  {
    exists i :: 0 <= i < k && i < |ns| && ns[i].userId == id
  }

  /** Every recipient of a fan-out has a notice among the new ones. */
  lemma FanOutCovers(before: seq<Notification>, after: seq<Notification>, targets: seq<User>,
                     title: string, message: string, idFor: nat -> string, u: User)
    requires MockStore.NoticePerTarget(before, after, targets, title, message, idFor)
    requires u in targets
    ensures AddressedAmong(after, |targets|, u.id)
  {
    var j :| 0 <= j < |targets| && targets[j] == u;
    NoticeOwner(before, after, targets, title, message, idFor, j);
  }

  /** A broadcast reaches only clients, and every client in the list. */
  lemma {:induction false} BroadcastReachesExactlyTheClients(ns: seq<Notification>, users: seq<User>, title: string,
                                                            message: string, idFor: nat -> string, t: Tick)
    requires title != "" && message != ""
    ensures var r := HandleSend(ns, users, title, message, AllClients, idFor, t);
            var k := |ClientUsers(users)|;
            && (forall i :: 0 <= i < k ==> IsClientId(users, r[i].userId))
            && (forall u :: u in users && u.role == Client ==> AddressedAmong(r, k, u.id))
  {
    var r := HandleSend(ns, users, title, message, AllClients, idFor, t);
    var clients := ClientUsers(users);
    var k := |clients|;
    assert MockStore.NoticePerTarget(ns, r, clients, title, message, idFor);
    forall i | 0 <= i < k
      ensures IsClientId(users, r[i].userId)
    {
      var j := k - 1 - i;
      NoticeOwner(ns, r, clients, title, message, idFor, j);
      assert clients[j] in clients;
    }
    forall u | u in users && u.role == Client
      ensures AddressedAmong(r, k, u.id)
    {
      assert u in clients;
      FanOutCovers(ns, r, clients, title, message, idFor, u);
    }
  }

  function HasNotifId(id: string): Notification -> bool
  {
    (n: Notification) => n.id == id
  }

  /** `saveEdit(id)`: the notice is looked up in the history the screen
      holds; if found, that copy with the new title and message replaces
      every stored notice with its id. An id missing from the history
      changes nothing. */
  function SaveEdit(ns: seq<Notification>, history: seq<Notification>, id: string, title: string, message: string)
    : (r: seq<Notification>)
    ensures FindIndex(history, HasNotifId(id)).None? ==> r == ns
    ensures |r| == |ns|
    ensures forall i :: 0 <= i < |ns| && ns[i].id != id ==> r[i] == ns[i]
    ensures FindIndex(history, HasNotifId(id)).Some? ==>
      var original := history[FindIndex(history, HasNotifId(id)).value];
      forall i :: 0 <= i < |ns| && ns[i].id == id ==> r[i] == original.(title := title, message := message)
  {
    match FindIndex(history, HasNotifId(id))
    case None => ns
    case Some(k) => MockStore.UpdateNotification(ns, history[k].(title := title, message := message))
  }

  ghost predicate UniqueNotifIds(ns: seq<Notification>)
  {
    forall i, j :: 0 <= i < j < |ns| ==> ns[i].id != ns[j].id
  }

  /** With a history freshly read from a store of distinct ids, editing
      changes exactly the title and message of that one notice. */
  lemma SaveEditChangesOnlyText(ns: seq<Notification>, history: seq<Notification>, id: string,
                                title: string, message: string, k: nat)
    requires UniqueNotifIds(ns) && multiset(history) == multiset(ns)
    requires k < |ns| && ns[k].id == id
    ensures SaveEdit(ns, history, id, title, message) == ns[k := ns[k].(title := title, message := message)]
  {
    assert ns[k] in multiset(history);
    var h := FindIndex(history, HasNotifId(id)).value;
    assert history[h] in multiset(ns);
    var j :| 0 <= j < |ns| && ns[j] == history[h];
    assert j == k;
  }

  /** `deleteNotif(id)`: after confirmation every notice with that id is
      removed and the others keep their order. */
  function DeleteNotif(ns: seq<Notification>, id: string, confirmed: bool): (r: seq<Notification>)
    ensures !confirmed ==> r == ns
    ensures confirmed ==> forall i :: 0 <= i < |r| ==> r[i].id != id
    ensures confirmed ==> forall x :: multiset(r)[x] == if x.id != id then multiset(ns)[x] else 0
  {
    if confirmed then MockStore.DeleteNotification(ns, id) else ns
  }

  const RemovedUser: string := "Usuário Removido"

  /** `getUserName(id)`: the name of the first client with that id, or
      'Usuário Removido' when no client has it (admins included). */
  function GetUserName(users: seq<User>, id: string): (name: string)
    ensures (forall u :: u in users && u.role == Client ==> u.id != id) ==> name == RemovedUser
    ensures (exists u :: u in users && u.role == Client && u.id == id) ==>
      exists u :: u in users && u.role == Client && u.id == id && name == u.name
  {
    var clients := ClientUsers(users);
    match FindIndex(clients, (u: User) => u.id == id)
    case None => RemovedUser
    case Some(k) =>
      assert clients[k] in clients;
      clients[k].name
  }
}

=== FILE: dashboard.dfy ===
/** The admin dashboard's status chart (`components/DashboardAdmin.tsx`).
    The `statusCounts` object is an association list in key-insertion
    order, which is the order `Object.keys` reports for such keys. */
module Dashboard {
  import opened Collections
  import opened Types

  /** One key of `statusCounts`, and one entry of `pieData`. */
  datatype Slice = Slice(name: string, value: nat)

  ghost predicate DistinctNames(c: seq<Slice>)
  {
    forall i, j :: 0 <= i < j < |c| ==> c[i].name != c[j].name
  }

  ghost predicate Named(c: seq<Slice>, s: string)
  {
    exists i :: 0 <= i < |c| && c[i].name == s
  }

  function Total(c: seq<Slice>): nat
  {
    if c == [] then 0 else c[0].value + Total(c[1..])
  }

  /** How many routines have status `s`. */
  function Count(routines: seq<Routine>, s: string): (n: nat)
    ensures n <= |routines|
  {
    if routines == [] then 0
    else Count(routines[..|routines| - 1], s) + (if routines[|routines| - 1].status == s then 1 else 0)
  }

  /** Position of the first routine with status `s`, or the number of
      routines when none has it. */
  ghost function FirstAt(routines: seq<Routine>, s: string): (k: nat)
    ensures k <= |routines|
    ensures k < |routines| ==> routines[k].status == s
    ensures forall j :: 0 <= j < k ==> routines[j].status != s
  {
    if routines == [] then 0
    else if routines[0].status == s then 0
    else FirstAt(routines[1..], s) + 1
  }

  /** The keys of `c` are in order of first appearance among the routines. */
  ghost predicate InFirstAppearanceOrder(c: seq<Slice>, routines: seq<Routine>)
  {
    forall i, j :: 0 <= i < j < |c| ==> FirstAt(routines, c[i].name) < FirstAt(routines, c[j].name)
  }

  /** A position holding the status, with none before it, is the first. */
  lemma FirstAtIs(routines: seq<Routine>, s: string, k: nat)
    requires k < |routines| && routines[k].status == s
    requires forall j :: 0 <= j < k ==> routines[j].status != s
    ensures FirstAt(routines, s) == k
  {
  }

  function HasName(s: string): Slice -> bool
  {
    (x: Slice) => x.name == s
  }

  /** Changing one slice changes the total by the difference. */
  lemma {:induction false} TotalUpdate(c: seq<Slice>, k: nat, x: Slice)
    requires k < |c|
    ensures Total(c[k := x]) + c[k].value == Total(c) + x.value
    decreases |c|
  {
    if k > 0 {
      assert c[k := x][1..] == c[1..][k - 1 := x];
      TotalUpdate(c[1..], k - 1, x);
    }
  }

  /** Appending a slice adds its value to the total. */
  lemma {:induction false} TotalAppend(c: seq<Slice>, x: Slice)
    ensures Total(c + [x]) == Total(c) + x.value
    decreases |c|
  {
    if c == [] {
      assert [x][1..] == [];
    } else {
      assert (c + [x])[1..] == c[1..] + [x];
      TotalAppend(c[1..], x);
    }
  }

  /** `acc[s] = (acc[s] || 0) + 1`: an existing key is incremented in place,
      a new key is added last with count 1. */
  function Bump(c: seq<Slice>, s: string): (r: seq<Slice>)
    requires DistinctNames(c)
    ensures DistinctNames(r)
    ensures Named(c, s) ==> |r| == |c|
    ensures !Named(c, s) ==> |r| == |c| + 1 && r[|c|] == Slice(s, 1)
    ensures forall i :: 0 <= i < |c| ==>
      r[i].name == c[i].name && r[i].value == c[i].value + (if c[i].name == s then 1 else 0)
    ensures forall x :: Named(r, x) <==> Named(c, x) || x == s
    ensures Total(r) == Total(c) + 1
  {
    match FindIndex(c, HasName(s))
    case Some(k) =>
      TotalUpdate(c, k, Slice(s, c[k].value + 1));
      NamedAfterUpdate(c, k, Slice(s, c[k].value + 1));
      c[k := Slice(s, c[k].value + 1)]
    case None =>
      TotalAppend(c, Slice(s, 1));
      NamedAfterAppend(c, Slice(s, 1));
      c + [Slice(s, 1)]
  }

  /** Replacing a slice by one of the same name keeps the set of names. */
  lemma NamedAfterUpdate(c: seq<Slice>, k: nat, x: Slice)
    requires k < |c| && c[k].name == x.name
    ensures forall y :: Named(c[k := x], y) <==> Named(c, y)
  {
    var r := c[k := x];
    forall y ensures Named(r, y) <==> Named(c, y) {
      if Named(r, y) {
        var i :| 0 <= i < |r| && r[i].name == y;
        assert c[i].name == y;
      }
      if Named(c, y) {
        var i :| 0 <= i < |c| && c[i].name == y;
        assert r[i].name == y;
      }
    }
  }

  /** Appending a slice adds exactly its name. */
  lemma NamedAfterAppend(c: seq<Slice>, x: Slice)
    ensures forall y :: Named(c + [x], y) <==> Named(c, y) || y == x.name
  {
    var r := c + [x];
    forall y ensures Named(r, y) <==> Named(c, y) || y == x.name {
      if Named(r, y) && y != x.name {
        var i :| 0 <= i < |r| && r[i].name == y;
        assert c[i].name == y;
      }
      if Named(c, y) {
        var i :| 0 <= i < |c| && c[i].name == y;
        assert r[i].name == y;
      }
      if y == x.name {
        assert r[|c|].name == y;
      }
    }
  }

  /** `statusCounts`: the routines folded into one slice per status, keys in
      order of first appearance. */
  function StatusCounts(routines: seq<Routine>): (c: seq<Slice>)
    ensures DistinctNames(c)
    ensures forall i :: 0 <= i < |c| ==> c[i].value == Count(routines, c[i].name) && c[i].value >= 1
    ensures forall s :: Named(c, s) <==> Count(routines, s) > 0
    ensures Total(c) == |routines|
    ensures InFirstAppearanceOrder(c, routines)
  {
    if routines == [] then []
    else
      var prev := StatusCounts(routines[..|routines| - 1]);
      CountsStep(routines, prev);
      OrderStep(routines, prev);
      Bump(prev, routines[|routines| - 1].status)
  }

  /** One step of the fold keeps first-appearance order: a status already
      counted first appeared before the last routine, and a new one is
      added last. */
  lemma OrderStep(routines: seq<Routine>, prev: seq<Slice>)
    requires routines != []
    requires DistinctNames(prev)
    requires forall s :: Named(prev, s) <==> Count(routines[..|routines| - 1], s) > 0
    requires InFirstAppearanceOrder(prev, routines[..|routines| - 1])
    ensures InFirstAppearanceOrder(Bump(prev, routines[|routines| - 1].status), routines)
  {
    var s := routines[|routines| - 1].status;
    var c := Bump(prev, s);
    CountedKeepFirstAt(routines, prev);
    if !Named(prev, s) {
      NewStatusFirstAtLast(routines, s);
    }
    forall i, j | 0 <= i < j < |c| ensures FirstAt(routines, c[i].name) < FirstAt(routines, c[j].name) {
      if j < |prev| {
        assert c[i].name == prev[i].name && c[j].name == prev[j].name;
      } else {
        assert c[i].name == prev[i].name && c[j].name == s;
      }
    }
  }

  /** Every status counted before the last routine keeps its first position,
      which lies before the last routine. */
  lemma CountedKeepFirstAt(routines: seq<Routine>, prev: seq<Slice>)
    requires routines != []
    requires forall s :: Named(prev, s) <==> Count(routines[..|routines| - 1], s) > 0
    ensures forall i :: 0 <= i < |prev| ==>
      FirstAt(routines, prev[i].name) == FirstAt(routines[..|routines| - 1], prev[i].name) < |routines| - 1
  {
    forall i | 0 <= i < |prev|
      ensures FirstAt(routines, prev[i].name) == FirstAt(routines[..|routines| - 1], prev[i].name) < |routines| - 1
    {
      assert Named(prev, prev[i].name);
      EarlierFirstAt(routines, prev[i].name);
    }
  }

  /** A status absent before the last routine first appears at the last. */
  lemma NewStatusFirstAtLast(routines: seq<Routine>, s: string)
    requires routines != [] && routines[|routines| - 1].status == s
    requires Count(routines[..|routines| - 1], s) == 0
    ensures FirstAt(routines, s) == |routines| - 1
  {
    var init := routines[..|routines| - 1];
    CountPositiveIffPresent(init, s);
    forall j | 0 <= j < |init| ensures routines[j].status != s {
      assert routines[j] == init[j];
    }
    FirstAtIs(routines, s, |init|);
  }

  /** A status present before the last routine first appears where it first
      appeared there. */
  lemma EarlierFirstAt(routines: seq<Routine>, s: string)
    requires routines != []
    requires Count(routines[..|routines| - 1], s) > 0
    ensures FirstAt(routines, s) == FirstAt(routines[..|routines| - 1], s) < |routines| - 1
  {
    var init := routines[..|routines| - 1];
    CountPositiveIffPresent(init, s);
    var j :| 0 <= j < |init| && init[j].status == s;
    var k := FirstAt(init, s);
    assert k <= j;
    forall i | 0 <= i < k ensures routines[i].status != s {
      assert routines[i] == init[i];
    }
    assert routines[k] == init[k];
    FirstAtIs(routines, s, k);
  }

  /** One step of the fold: if `prev` counts every routine but the last,
      bumping the last routine's status counts them all. */
  lemma CountsStep(routines: seq<Routine>, prev: seq<Slice>)
    requires routines != []
    requires DistinctNames(prev)
    requires forall i :: 0 <= i < |prev| ==>
      prev[i].value == Count(routines[..|routines| - 1], prev[i].name) && prev[i].value >= 1
    requires forall s :: Named(prev, s) <==> Count(routines[..|routines| - 1], s) > 0
    requires Total(prev) == |routines| - 1
    ensures var c := Bump(prev, routines[|routines| - 1].status);
      && DistinctNames(c)
      && (forall i :: 0 <= i < |c| ==> c[i].value == Count(routines, c[i].name) && c[i].value >= 1)
      && (forall s :: Named(c, s) <==> Count(routines, s) > 0)
      && Total(c) == |routines|
  {
    var init := routines[..|routines| - 1];
    var s := routines[|routines| - 1].status;
    var c := Bump(prev, s);
    assert forall x :: Count(routines, x) == Count(init, x) + (if x == s then 1 else 0);
    forall i | 0 <= i < |c| ensures c[i].value == Count(routines, c[i].name) && c[i].value >= 1 {
      if i >= |prev| {
        assert !Named(prev, s) && c[i] == Slice(s, 1);
      }
    }
  }

  /** A status has a positive count exactly when some routine has it. */
  lemma {:induction false} CountPositiveIffPresent(routines: seq<Routine>, s: string)
    ensures Count(routines, s) > 0 <==> exists j :: 0 <= j < |routines| && routines[j].status == s
    decreases |routines|
  {
    if routines != [] {
      var init := routines[..|routines| - 1];
      CountPositiveIffPresent(init, s);
      if exists j :: 0 <= j < |init| && init[j].status == s {
        var j :| 0 <= j < |init| && init[j].status == s;
        assert routines[j].status == s;
      }
      if exists j :: 0 <= j < |routines| && routines[j].status == s {
        var j :| 0 <= j < |routines| && routines[j].status == s;
        if j < |init| { assert init[j].status == s; }
      }
    }
  }

  /** `Object.keys(statusCounts)`. */
  function Keys(c: seq<Slice>): (ks: seq<string>)
    ensures |ks| == |c| && forall i :: 0 <= i < |c| ==> ks[i] == c[i].name
  {
    if c == [] then [] else [c[0].name] + Keys(c[1..])
  }

  /** `statusCounts[key]`: the value stored under a key, 0 when absent. */
  function Lookup(c: seq<Slice>, key: string): nat
  {
    if c == [] then 0 else if c[0].name == key then c[0].value else Lookup(c[1..], key)
  }

  /** `pieData`: one entry per key, carrying the key and its count. */
  function PieData(c: seq<Slice>): (pie: seq<Slice>)
    ensures |pie| == |c|
  {
    var ks := Keys(c);
    seq(|ks|, i requires 0 <= i < |ks| => Slice(ks[i], Lookup(c, ks[i])))
  }

  /** Reading the keys back one at a time reproduces each slice, because a
      key occurs once. */
  lemma {:induction false} LookupFindsSlice(c: seq<Slice>, i: nat)
    requires DistinctNames(c) && i < |c|
    ensures Lookup(c, c[i].name) == c[i].value
    decreases |c|
  {
    if i > 0 {
      assert c[0].name != c[i].name;
      assert c[1..][i - 1] == c[i];
      LookupFindsSlice(c[1..], i - 1);
    }
  }

  /** The pie chart shows one slice per status present among the routines,
      in first-appearance order, each with that status's count, and the
      slices add up to the number of routines. */
  lemma PieDataSummarisesRoutines(routines: seq<Routine>)
    ensures PieData(StatusCounts(routines)) == StatusCounts(routines)
    ensures var pie := PieData(StatusCounts(routines));
            && DistinctNames(pie)
            && (forall i :: 0 <= i < |pie| ==> pie[i].value == Count(routines, pie[i].name) >= 1)
            && Total(pie) == |routines|
            && InFirstAppearanceOrder(pie, routines)
  {
    var c := StatusCounts(routines);
    var pie := PieData(c);
    forall i | 0 <= i < |c| ensures pie[i] == c[i] {
      LookupFindsSlice(c, i);
    }
  }

  /** The chart's palette: amber, green, red, blue. */
  const Colors: seq<string> := ["#F59E0B", "#10B981", "#EF4444", "#3B82F6"]

  /** `COLORS[index % COLORS.length]`: always a palette colour. */
  function CellColor(index: nat): (color: string)
    ensures color in Colors
  {
    Colors[index % |Colors|]
  }

  /** The palette repeats every four slices, and neighbouring slices never
      share a colour. */
  lemma CellColorCycles(index: nat)
    ensures CellColor(index + |Colors|) == CellColor(index)
    ensures CellColor(index + 1) != CellColor(index)
  {
  }
}

=== FILE: mock_store.dfy ===
/** The portal's in-memory store (`services/mockData.ts`). The module-level
    arrays become fields of an immutable `Db`, and every store function
    becomes a pure function from the old contents to the new ones. As in the
    source, a lookup finds the FIRST entry with the given id and the
    write-back replaces EVERY entry carrying that id. */
module MockStore {
  import opened Collections
  import opened Types

  datatype Db = Db(requests: seq<ServiceRequest>, notifications: seq<Notification>,
                   users: seq<User>, payment: PaymentConfig)

  /** No two requests in the store share an id. */
  ghost predicate UniqueIds(reqs: seq<ServiceRequest>)
  {
    forall i, j :: 0 <= i < j < |reqs| ==> reqs[i].id != reqs[j].id
  }

  function UpdatedAt(r: ServiceRequest): int
  {
    r.updatedAt
  }

  function IsAdmin(u: User): bool
  {
    u.role == Admin
  }

  function ById(id: string): ServiceRequest -> bool
  {
    (r: ServiceRequest) => r.id == id
  }

  /** `SERVICE_REQUESTS.find(r => r.id === id)`, as an index. */
  function FindById(reqs: seq<ServiceRequest>, id: string): (k: Option<nat>)
    ensures k.Some? ==> k.value < |reqs| && reqs[k.value].id == id
    ensures k.Some? ==> forall j :: 0 <= j < k.value ==> reqs[j].id != id
    ensures k.None? <==> forall j :: 0 <= j < |reqs| ==> reqs[j].id != id
  {
    FindIndex(reqs, ById(id))
  }

  // ---------------------------------------------------------------- listing

  /** The two filters of `getServiceRequests`. A missing or empty company id
      (both falsy in JavaScript) applies no company filter. */
  predicate Listed(r: ServiceRequest, companyId: Option<string>, includeDeleted: bool)
  {
    && (companyId.None? || companyId.value == "" || r.companyId == companyId.value)
    && (includeDeleted || !r.deleted)
  }

  /** The requests passing both filters of `getServiceRequests`, in store order. */
  function FilterListed(reqs: seq<ServiceRequest>, companyId: Option<string>, includeDeleted: bool)
    : (r: seq<ServiceRequest>)
    ensures forall x :: multiset(r)[x] == if Listed(x, companyId, includeDeleted) then multiset(reqs)[x] else 0
  {
    var byCompany :=
      if companyId.Some? && companyId.value != "" then Filter(reqs, (x: ServiceRequest) => x.companyId == companyId.value)
      else reqs;
    if includeDeleted then byCompany else Filter(byCompany, (x: ServiceRequest) => !x.deleted)
  }

  /** `getServiceRequests(companyId?, includeDeleted = false)`: the matching
      requests, most recently updated first. */
  function GetServiceRequests(reqs: seq<ServiceRequest>, companyId: Option<string>, includeDeleted: bool)
    : (r: seq<ServiceRequest>)
    ensures forall i :: 0 <= i < |r| ==> Listed(r[i], companyId, includeDeleted)
    ensures forall x :: multiset(r)[x] == if Listed(x, companyId, includeDeleted) then multiset(reqs)[x] else 0
    ensures SortedDesc(r, UpdatedAt)
  {
    var shown := FilterListed(reqs, companyId, includeDeleted);
    var r := SortDesc(shown, UpdatedAt);
    forall i | 0 <= i < |r| ensures Listed(r[i], companyId, includeDeleted) {
      assert multiset(shown)[r[i]] == multiset(r)[r[i]] > 0;
    }
    r
  }

  /** Every request matching the filters is listed, and nothing else is. */
  lemma GetServiceRequestsMembers(reqs: seq<ServiceRequest>, companyId: Option<string>, includeDeleted: bool, x: ServiceRequest)
    ensures x in GetServiceRequests(reqs, companyId, includeDeleted) <==> x in reqs && Listed(x, companyId, includeDeleted)
  {
    var r := GetServiceRequests(reqs, companyId, includeDeleted);
    assert x in r <==> multiset(r)[x] > 0;
    assert x in reqs <==> multiset(reqs)[x] > 0;
  }

  function IsDeleted(r: ServiceRequest): bool
  {
    r.deleted
  }

  /** `getDeletedServiceRequests()`: the soft-deleted requests in store order. */
  function GetDeletedServiceRequests(reqs: seq<ServiceRequest>): (r: seq<ServiceRequest>)
    ensures forall i :: 0 <= i < |r| ==> r[i].deleted
    ensures forall x :: multiset(r)[x] == if x.deleted then multiset(reqs)[x] else 0
  {
    Filter(reqs, IsDeleted)
  }

  /** The trash keeps store order: it lists the deleted requests of a front
      part of the store before those of the rest. */
  lemma DeletedKeepStoreOrder(front: seq<ServiceRequest>, back: seq<ServiceRequest>)
    ensures GetDeletedServiceRequests(front + back) == GetDeletedServiceRequests(front) + GetDeletedServiceRequests(back)
  {
    FilterConcat(front, back, IsDeleted);
  }

  // ------------------------------------------------------------------ adding

  /** `creator?.name || 'Cliente'` for the first user with the given id. */
  function CreatorName(users: seq<User>, clientId: string): (name: string)
    ensures name != ""
    ensures (forall i :: 0 <= i < |users| ==> users[i].id != clientId) ==> name == "Cliente"
  {
    match FindIndex(users, (u: User) => u.id == clientId)
    case None => "Cliente"
    case Some(k) => if users[k].name == "" then "Cliente" else users[k].name
  }

  /** The notices a `forEach` over `targets` creates, one per target in
      target order; `idFor(i)` is the id the i-th one receives. */
  function Notices(targets: seq<User>, title: string, message: string,
                   idFor: nat -> string, now: Timestamp): (ns: seq<Notification>)
    ensures |ns| == |targets|
    ensures forall i {:trigger ns[i]} :: 0 <= i < |ns| ==>
      ns[i] == Notification(idFor(i), targets[i].id, title, message, false, now)
  {
    seq(|targets|, i requires 0 <= i < |targets| => Notification(idFor(i), targets[i].id, title, message, false, now))
  }

  /** `after` is `before` with one unread notice titled `title` per target
      put in front, the notice for the last target first; the i-th target's
      notice has id `idFor(i)` and carries `message`. */
  ghost predicate NoticePerTarget(before: seq<Notification>, after: seq<Notification>, targets: seq<User>,
                                  title: string, message: string, idFor: nat -> string)
  {
    && |after| == |before| + |targets|
    && (forall k :: 0 <= k < |before| ==> after[|targets| + k] == before[k])
    && forall i :: 0 <= i < |targets| ==> NoticeFor(after[|targets| - 1 - i], targets[i], title, message, idFor(i))
  }

  /** `n` is an unread notice to `u` with that title, message and id. */
  ghost predicate NoticeFor(n: Notification, u: User, title: string, message: string, id: string)
  {
    n.userId == u.id && n.title == title && n.message == message && !n.read && n.id == id
  }

  /** Putting the notices for `targets` in front of `ns`, one at a time,
      leaves the notice for the i-th target at position `|targets| - 1 - i`. */
  lemma NoticesPrepended(ns: seq<Notification>, targets: seq<User>, title: string, message: string,
                         idFor: nat -> string, now: Timestamp)
    ensures NoticePerTarget(ns, PrependEach(ns, Notices(targets, title, message, idFor, now)),
                            targets, title, message, idFor)
  {
    var notices := Notices(targets, title, message, idFor, now);
    var r := PrependEach(ns, notices);
    assert |notices| == |targets|;
    forall i | 0 <= i < |targets|
      ensures NoticeFor(r[|targets| - 1 - i], targets[i], title, message, idFor(i))
    {
      assert r[|notices| - 1 - i] == notices[i];
    }
  }

  /** Every notice put in front carries the time it was sent. */
  lemma PrependedNoticesStamped(ns: seq<Notification>, targets: seq<User>, title: string, message: string,
                                idFor: nat -> string, now: Timestamp)
    ensures forall i :: 0 <= i < |targets| ==>
              PrependEach(ns, Notices(targets, title, message, idFor, now))[i].timestamp == now
  {
    var notices := Notices(targets, title, message, idFor, now);
    var r := PrependEach(ns, notices);
    forall i | 0 <= i < |targets| ensures r[i].timestamp == now {
      assert r[|notices| - 1 - (|notices| - 1 - i)] == notices[|notices| - 1 - i];
    }
  }

  /** Each target is sent one unread notice, each put in front of the list
      in turn, so the notice for the last target ends up first. */
  function NotifyEach(ns: seq<Notification>, targets: seq<User>, title: string, message: string,
                      idFor: nat -> string, now: Timestamp): (r: seq<Notification>)
    ensures NoticePerTarget(ns, r, targets, title, message, idFor)
    ensures forall i :: 0 <= i < |targets| ==> r[i].timestamp == now
  {
    NoticesPrepended(ns, targets, title, message, idFor, now);
    PrependedNoticesStamped(ns, targets, title, message, idFor, now);
    PrependEach(ns, Notices(targets, title, message, idFor, now))
  }

  /** The text of the notice announcing a new request. */
  function NewRequestMessage(users: seq<User>, req: ServiceRequest): string
  {
    "Nova solicitação " + req.protocol + " criada por " + CreatorName(users, req.clientId) + "."
  }

  /** `addServiceRequest(req)`: the request goes first and every admin is
      notified. `idFor(i)` is the fresh id of the notice for the i-th admin. */
  function AddServiceRequest(db: Db, req: ServiceRequest, idFor: nat -> string, now: Timestamp): (db': Db)
    ensures db'.requests == [req] + db.requests
    ensures db'.(requests := db.requests, notifications := db.notifications) == db
    ensures NoticePerTarget(db.notifications, db'.notifications, Filter(db.users, IsAdmin),
                            "Nova Solicitação", NewRequestMessage(db.users, req), idFor)
  {
    db.(requests := [req] + db.requests,
        notifications := NotifyEach(db.notifications, Filter(db.users, IsAdmin), "Nova Solicitação",
                                    NewRequestMessage(db.users, req), idFor, now))
  }

  // ---------------------------------------------------------------- updating

  /** `updateServiceRequest(req)`: every entry with the id of `req` becomes `req`. */
  function UpdateServiceRequest(reqs: seq<ServiceRequest>, req: ServiceRequest): (r: seq<ServiceRequest>)
    ensures |r| == |reqs|
    ensures forall i :: 0 <= i < |reqs| ==> r[i] == if reqs[i].id == req.id then req else reqs[i]
  {
    ReplaceWhere(reqs, ById(req.id), (_: ServiceRequest) => req)
  }

  /** Updating with an id the store does not hold changes nothing. */
  lemma UpdateUnknownIdIsNoOp(reqs: seq<ServiceRequest>, req: ServiceRequest)
    requires forall i :: 0 <= i < |reqs| ==> reqs[i].id != req.id
    ensures UpdateServiceRequest(reqs, req) == reqs
  {
  }

  /** With unique ids exactly one slot changes: the one holding that id. */
  lemma UpdateReplacesOnlyThatEntry(reqs: seq<ServiceRequest>, req: ServiceRequest, k: nat)
    requires UniqueIds(reqs)
    requires k < |reqs| && reqs[k].id == req.id
    ensures UpdateServiceRequest(reqs, req) == reqs[k := req]
    ensures UniqueIds(UpdateServiceRequest(reqs, req))
  {
  }

  /** The audit entry `softDeleteServiceRequest` or `restoreServiceRequest` appends. */
  function TrashAction(deleted: bool): string
  {
    if deleted then "Enviado para Lixeira" else "Restaurado da Lixeira"
  }

  /** The request with its `deleted` flag set and the matching entry logged. */
  function WithDeletedFlag(r: ServiceRequest, deleted: bool, user: string, t: Tick): (r': ServiceRequest)
    ensures r'.deleted == deleted
    ensures r'.auditLog == r.auditLog + [AuditEntry(t.id, TrashAction(deleted), user, t.now)]
    ensures r'.(deleted := r.deleted, auditLog := r.auditLog) == r
  {
    r.(deleted := deleted, auditLog := r.auditLog + [AuditEntry(t.id, TrashAction(deleted), user, t.now)])
  }

  function TrashWith(deleted: bool, user: string, t: Tick): ServiceRequest -> ServiceRequest
  {
    (x: ServiceRequest) => WithDeletedFlag(x, deleted, user, t)
  }

  /** Find by id, change the found request with `f`, write it back. */
  function ModifyById(reqs: seq<ServiceRequest>, id: string, f: ServiceRequest -> ServiceRequest): (r: seq<ServiceRequest>)
    requires forall x :: f(x).id == x.id
    ensures |r| == |reqs|
    ensures forall i :: 0 <= i < |reqs| && reqs[i].id != id ==> r[i] == reqs[i]
    ensures FindById(reqs, id).None? ==> r == reqs
    ensures FindById(reqs, id).Some? ==>
      forall i :: 0 <= i < |reqs| && reqs[i].id == id ==> r[i] == f(reqs[FindById(reqs, id).value])
  {
    match FindById(reqs, id)
    case None => reqs
    case Some(k) => UpdateServiceRequest(reqs, f(reqs[k]))
  }

  /** `softDeleteServiceRequest(id, user)`: the first request with that id is
      marked deleted, one 'Enviado para Lixeira' entry is logged, and every
      entry with that id is overwritten with the result. */
  function SoftDeleteServiceRequest(reqs: seq<ServiceRequest>, id: string, user: string, t: Tick): (r: seq<ServiceRequest>)
    ensures |r| == |reqs|
    ensures FindById(reqs, id).None? ==> r == reqs
    ensures forall i :: 0 <= i < |reqs| && reqs[i].id != id ==> r[i] == reqs[i]
    ensures FindById(reqs, id).Some? ==> var found := reqs[FindById(reqs, id).value];
      forall i :: 0 <= i < |reqs| && reqs[i].id == id ==>
        && r[i].deleted
        && r[i].auditLog == found.auditLog + [AuditEntry(t.id, "Enviado para Lixeira", user, t.now)]
        && r[i].(deleted := found.deleted, auditLog := found.auditLog) == found
  {
    ModifyById(reqs, id, TrashWith(true, user, t))
  }

  /** `restoreServiceRequest(id, user)`: as soft delete, with the flag cleared
      and a 'Restaurado da Lixeira' entry. */
  function RestoreServiceRequest(reqs: seq<ServiceRequest>, id: string, user: string, t: Tick): (r: seq<ServiceRequest>)
    ensures |r| == |reqs|
    ensures FindById(reqs, id).None? ==> r == reqs
    ensures forall i :: 0 <= i < |reqs| && reqs[i].id != id ==> r[i] == reqs[i]
    ensures FindById(reqs, id).Some? ==> var found := reqs[FindById(reqs, id).value];
      forall i :: 0 <= i < |reqs| && reqs[i].id == id ==>
        && !r[i].deleted
        && r[i].auditLog == found.auditLog + [AuditEntry(t.id, "Restaurado da Lixeira", user, t.now)]
        && r[i].(deleted := found.deleted, auditLog := found.auditLog) == found
  {
    ModifyById(reqs, id, TrashWith(false, user, t))
  }

  /** With unique ids, the first request with a given id is the only one. */
  lemma FindByIdUnique(reqs: seq<ServiceRequest>, k: nat)
    requires UniqueIds(reqs) && k < |reqs|
    ensures FindById(reqs, reqs[k].id) == Some(k)
  {
  }

  /** With unique ids, changing the request with a stored id changes that
      one slot, and the ids stay unique. */
  lemma ModifyAt(reqs: seq<ServiceRequest>, k: nat, f: ServiceRequest -> ServiceRequest)
    requires UniqueIds(reqs) && k < |reqs|
    requires forall x :: f(x).id == x.id
    ensures ModifyById(reqs, reqs[k].id, f) == reqs[k := f(reqs[k])]
    ensures UniqueIds(reqs[k := f(reqs[k])])
  {
    FindByIdUnique(reqs, k);
    UpdateReplacesOnlyThatEntry(reqs, f(reqs[k]), k);
  }

  /** Soft delete is not idempotent: deleting twice logs two entries. */
  lemma SoftDeleteTwiceLogsTwice(reqs: seq<ServiceRequest>, k: nat, user: string, t1: Tick, t2: Tick)
    requires UniqueIds(reqs) && k < |reqs|
    ensures var once := SoftDeleteServiceRequest(reqs, reqs[k].id, user, t1);
            var twice := SoftDeleteServiceRequest(once, reqs[k].id, user, t2);
            && twice[k].deleted
            && twice[k].auditLog == reqs[k].auditLog + [AuditEntry(t1.id, "Enviado para Lixeira", user, t1.now),
                                                        AuditEntry(t2.id, "Enviado para Lixeira", user, t2.now)]
  {
    ModifyAt(reqs, k, TrashWith(true, user, t1));
    var once := reqs[k := WithDeletedFlag(reqs[k], true, user, t1)];
    ModifyAt(once, k, TrashWith(true, user, t2));
    assert once[k].auditLog + [AuditEntry(t2.id, "Enviado para Lixeira", user, t2.now)]
        == reqs[k].auditLog + [AuditEntry(t1.id, "Enviado para Lixeira", user, t1.now),
                               AuditEntry(t2.id, "Enviado para Lixeira", user, t2.now)];
  }

  /** Deleting and then restoring brings a request back into the default
      listing with its chat intact and exactly the two trash entries logged. */
  lemma DeleteThenRestore(reqs: seq<ServiceRequest>, k: nat, user: string, t1: Tick, t2: Tick)
    requires UniqueIds(reqs) && k < |reqs|
    ensures var back := RestoreServiceRequest(SoftDeleteServiceRequest(reqs, reqs[k].id, user, t1), reqs[k].id, user, t2);
            && |back| == |reqs|
            && back[k] == reqs[k].(deleted := false,
                                   auditLog := reqs[k].auditLog + [AuditEntry(t1.id, "Enviado para Lixeira", user, t1.now),
                                                                   AuditEntry(t2.id, "Restaurado da Lixeira", user, t2.now)])
            && Listed(back[k], None, false)
            && forall i :: 0 <= i < |reqs| && i != k ==> back[i] == reqs[i]
  {
    ModifyAt(reqs, k, TrashWith(true, user, t1));
    var once := reqs[k := WithDeletedFlag(reqs[k], true, user, t1)];
    ModifyAt(once, k, TrashWith(false, user, t2));
    assert once[k].auditLog + [AuditEntry(t2.id, "Restaurado da Lixeira", user, t2.now)]
        == reqs[k].auditLog + [AuditEntry(t1.id, "Enviado para Lixeira", user, t1.now),
                               AuditEntry(t2.id, "Restaurado da Lixeira", user, t2.now)];
  }

  /** `addRequestMessage(reqId, msg)`: one message appended to the chat of the
      request with that id; nothing else about it changes. */
  function AddRequestMessage(reqs: seq<ServiceRequest>, reqId: string, msg: ChatMessage): (r: seq<ServiceRequest>)
    ensures |r| == |reqs|
    ensures FindById(reqs, reqId).None? ==> r == reqs
    ensures forall i :: 0 <= i < |reqs| && reqs[i].id != reqId ==> r[i] == reqs[i]
    ensures FindById(reqs, reqId).Some? ==> var found := reqs[FindById(reqs, reqId).value];
      forall i :: 0 <= i < |reqs| && reqs[i].id == reqId ==>
        && r[i].chat == found.chat + [msg]
        && r[i].auditLog == found.auditLog
        && r[i].status == found.status
        && r[i].(chat := found.chat) == found
  {
    ModifyById(reqs, reqId, (x: ServiceRequest) => x.(chat := x.chat + [msg]))
  }

  // -------------------------------------------------------------- PIX charge

  /** Validity of a charge: sixty minutes, in milliseconds. */
  const PixValidity: int := 60 * 60 * 1000

  const IncompleteConfig: string := "Configuração de pagamento incompleta."

  /** The check `generatePixCharge` makes before contacting the bank. */
  predicate PaymentConfigured(cfg: PaymentConfig)
  {
    cfg.inter.clientId != "" && cfg.inter.certificateUploaded
  }

  /** The copy-and-paste payload of the simulated charge. It imitates a PIX
      BR Code but is an opaque string: no CRC is computed. */
  function PixPayload(pixKey: string, txid: string): (p: string)
    ensures |txid| <= |p| && p[|p| - |txid|..] == txid
  {
    "00020126360014BR.GOV.BCB.PIX0114" + (if pixKey == "" then "CHAVE-ALEATORIA" else pixKey)
    + "5204000053039865802BR5913ContabilConnect6008SaoPaulo62070503***6304" + txid
  }

  datatype Charge = Charge(txid: string, pixCopiaECola: string)

  /** The request with the charge attached and one 'Sistema' entry logged. */
  function WithCharge(r: ServiceRequest, c: Charge, t: Tick): (r': ServiceRequest)
    ensures r'.id == r.id && r'.status == r.status && r'.paymentStatus == r.paymentStatus
    ensures r'.(txid := r.txid, pixCopiaECola := r.pixCopiaECola, pixExpiration := r.pixExpiration,
                auditLog := r.auditLog) == r
  {
    r.(txid := Some(c.txid), pixCopiaECola := Some(c.pixCopiaECola), pixExpiration := Some(t.now + PixValidity),
       auditLog := r.auditLog + [AuditEntry(t.id, "Cobrança PIX Gerada (Aguardando Webhook)", "Sistema", t.now)])
  }

  function ChargeWith(c: Charge, t: Tick): ServiceRequest -> ServiceRequest
  {
    (x: ServiceRequest) => WithCharge(x, c, t)
  }

  /** What a charge does to the stored requests: every entry with the id
      becomes the first such entry with the charge attached and one 'Sistema'
      entry logged, every other field as it was. */
  ghost predicate ChargeAttached(reqs: seq<ServiceRequest>, reqs': seq<ServiceRequest>, reqId: string,
                                 c: Charge, t: Tick)
  {
    && |reqs'| == |reqs|
    && (FindById(reqs, reqId).None? ==> reqs' == reqs)
    && (FindById(reqs, reqId).Some? ==>
         var found := reqs[FindById(reqs, reqId).value];
         forall i :: 0 <= i < |reqs'| ==>
           if reqs[i].id != reqId then reqs'[i] == reqs[i]
           else
             && reqs'[i].txid == Some(c.txid)
             && reqs'[i].pixCopiaECola == Some(c.pixCopiaECola)
             && reqs'[i].pixExpiration == Some(t.now + PixValidity)
             && reqs'[i].status == found.status
             && reqs'[i].paymentStatus == found.paymentStatus
             && reqs'[i].auditLog == found.auditLog + [AuditEntry(t.id, "Cobrança PIX Gerada (Aguardando Webhook)", "Sistema", t.now)]
             && reqs'[i].(txid := found.txid, pixCopiaECola := found.pixCopiaECola,
                          pixExpiration := found.pixExpiration, auditLog := found.auditLog) == found)
  }

  lemma AttachChargeAttaches(reqs: seq<ServiceRequest>, reqId: string, c: Charge, t: Tick)
    ensures ChargeAttached(reqs, ModifyById(reqs, reqId, ChargeWith(c, t)), reqId, c, t)
  {
  }

  /** `generatePixCharge(reqId, amount)` as one synchronous step; `txid` is
      the random transaction id the source draws. A missing client id or
      certificate fails before anything changes; otherwise the charge is
      attached to the request and returned, even when no request has that id. */
  function GeneratePixCharge(db: Db, reqId: string, txid: string, t: Tick): (r: Result<(Charge, Db)>)
    ensures r.Err? <==> !PaymentConfigured(db.payment)
    ensures r.Err? ==> r.error == IncompleteConfig
    ensures r.Ok? ==> r.value.0 == Charge(txid, PixPayload(db.payment.inter.pixKey, txid))
    ensures r.Ok? ==> r.value.1.(requests := db.requests) == db
    ensures r.Ok? ==> ChargeAttached(db.requests, r.value.1.requests, reqId, r.value.0, t)
  {
    if !PaymentConfigured(db.payment) then Err(IncompleteConfig)
    else
      var charge := Charge(txid, PixPayload(db.payment.inter.pixKey, txid));
      AttachChargeAttaches(db.requests, reqId, charge, t);
      Ok((charge, db.(requests := ModifyById(db.requests, reqId, ChargeWith(charge, t)))))
  }

  // ----------------------------------------------------------------- webhook

  function HasTxid(txid: string): ServiceRequest -> bool
  {
    (r: ServiceRequest) => r.txid == Some(txid)
  }

  /** The request after the bank confirmed its payment. */
  function WebhookConfirmed(r: ServiceRequest, t: Tick): (r': ServiceRequest)
    ensures r'.status == Requested && r'.paymentStatus == PayApproved
    ensures r'.id == r.id && r'.txid == r.txid
    ensures r'.auditLog == r.auditLog + [AuditEntry(t.id, "Webhook: Pagamento Confirmado", "Banco Inter API", t.now)]
    ensures r'.(status := r.status, paymentStatus := r.paymentStatus, auditLog := r.auditLog) == r
  {
    r.(status := Requested, paymentStatus := PayApproved,
       auditLog := r.auditLog + [AuditEntry(t.id, "Webhook: Pagamento Confirmado", "Banco Inter API", t.now)])
  }

  /** No request before position `k` carries `txid`. */
  ghost predicate NoTxidBefore(reqs: seq<ServiceRequest>, txid: string, k: int)
    requires k <= |reqs|
  {
    forall j :: 0 <= j < k ==> reqs[j].txid != Some(txid)
  }

  /** Whether the first request carrying `txid` awaits payment: the condition
      under which the webhook acts. */
  predicate WebhookApplies(reqs: seq<ServiceRequest>, txid: string)
    ensures WebhookApplies(reqs, txid) <==>
      exists k :: && 0 <= k < |reqs| && reqs[k].txid == Some(txid) && reqs[k].status == PendingPayment
                  && NoTxidBefore(reqs, txid, k)
  {
    match FindIndex(reqs, HasTxid(txid))
    case None => false
    case Some(k) => reqs[k].status == PendingPayment
  }

  /** The bank's payment webhook for `txid`, with `idFor(i)` the id given to
      the notice for the i-th admin. It acts only when the first request with
      that txid is awaiting payment, and answers whether it did. */
  function WebhookPayment(db: Db, txid: string, idFor: nat -> string, t: Tick): (out: (bool, Db))
    ensures out.0 == WebhookApplies(db.requests, txid)
    ensures !out.0 ==> out.1 == db
    ensures out.0 ==> out.1 == ConfirmPaid(db, FindIndex(db.requests, HasTxid(txid)).value, idFor, t)
  {
    if WebhookApplies(db.requests, txid) then (true, ConfirmPaid(db, FindIndex(db.requests, HasTxid(txid)).value, idFor, t))
    else (false, db)
  }

  function PaymentMessage(protocol: string): string
  {
    "O pagamento do pedido " + protocol + " foi confirmado via Webhook."
  }

  /** The effect of a webhook that acts on the k-th request: it is confirmed
      and written back, and every admin gets one unread notice. */
  function ConfirmPaid(db: Db, k: nat, idFor: nat -> string, t: Tick): (db': Db)
    requires k < |db.requests|
    ensures db'.(requests := db.requests, notifications := db.notifications) == db
    ensures db'.requests == UpdateServiceRequest(db.requests, WebhookConfirmed(db.requests[k], t))
    ensures NoticePerTarget(db.notifications, db'.notifications, Filter(db.users, IsAdmin),
                            "Pagamento PIX Recebido", PaymentMessage(db.requests[k].protocol), idFor)
  {
    db.(requests := UpdateServiceRequest(db.requests, WebhookConfirmed(db.requests[k], t)),
        notifications := NotifyEach(db.notifications, Filter(db.users, IsAdmin), "Pagamento PIX Recebido",
                                    PaymentMessage(db.requests[k].protocol), idFor, t.now))
  }

  /** After a webhook that acted, the first request with that txid is the
      confirmed one, so it no longer awaits payment. */
  lemma ConfirmedIsFirstWithTxid(reqs: seq<ServiceRequest>, txid: string, t: Tick)
    requires WebhookApplies(reqs, txid)
    ensures var k := FindIndex(reqs, HasTxid(txid)).value;
            var after := UpdateServiceRequest(reqs, WebhookConfirmed(reqs[k], t));
            FindIndex(after, HasTxid(txid)).Some? && after[FindIndex(after, HasTxid(txid)).value].status == Requested
  {
    var k := FindIndex(reqs, HasTxid(txid)).value;
    WrittenBackIsFirstWithTxid(reqs, txid, k, WebhookConfirmed(reqs[k], t));
  }

  /** Writing back, over the first request with a txid, a copy with the same
      id and txid makes that copy the first request with the txid. */
  lemma WrittenBackIsFirstWithTxid(reqs: seq<ServiceRequest>, txid: string, k: nat, c: ServiceRequest)
    requires FindIndex(reqs, HasTxid(txid)) == Some(k)
    requires c.id == reqs[k].id && c.txid == Some(txid)
    ensures var after := UpdateServiceRequest(reqs, c);
            FindIndex(after, HasTxid(txid)).Some? && after[FindIndex(after, HasTxid(txid)).value] == c
  {
    FirstAfterOverwrite(reqs, UpdateServiceRequest(reqs, c), HasTxid(txid), k, c);
  }

  /** A repeated delivery of the same webhook is a no-op that answers false. */
  lemma WebhookIdempotent(db: Db, txid: string, idFor1: nat -> string, idFor2: nat -> string, t1: Tick, t2: Tick)
    ensures var once := WebhookPayment(db, txid, idFor1, t1).1;
            WebhookPayment(once, txid, idFor2, t2) == (false, once)
  {
    if WebhookApplies(db.requests, txid) {
      ConfirmedIsFirstWithTxid(db.requests, txid, t1);
    }
  }

  /** A txid that no request carries changes nothing. */
  lemma WebhookUnknownTxid(db: Db, txid: string, idFor: nat -> string, t: Tick)
    requires forall i :: 0 <= i < |db.requests| ==> db.requests[i].txid != Some(txid)
    ensures WebhookPayment(db, txid, idFor, t) == (false, db)
  {
  }

  /** An id source that hands out the same id every time. */
  function ConstantId(id: string): nat -> string
  {
    (_: nat) => id
  }

  /** `simulateWebhookPayment(txid)` as written: every admin notice gets the
      same id, `Date.now().toString()`. */
  function SimulateWebhookPayment(db: Db, txid: string, t: Tick): (out: (bool, Db))
    ensures out.0 == WebhookApplies(db.requests, txid)
    ensures !out.0 ==> out.1 == db
    ensures out.0 ==> var k := FindIndex(db.requests, HasTxid(txid)).value;
      && out.1.requests == UpdateServiceRequest(db.requests, WebhookConfirmed(db.requests[k], t))
      && out.1.(requests := db.requests, notifications := db.notifications) == db
  {
    WebhookPayment(db, txid, ConstantId(t.id), t)
  }

  /** A webhook that acts notifies every admin once, in the store's order. */
  lemma WebhookFansOut(db: Db, txid: string, idFor: nat -> string, t: Tick)
    requires WebhookApplies(db.requests, txid)
    ensures NoticePerTarget(db.notifications, WebhookPayment(db, txid, idFor, t).1.notifications,
                            Filter(db.users, IsAdmin), "Pagamento PIX Recebido",
                            PaymentMessage(db.requests[FindIndex(db.requests, HasTxid(txid)).value].protocol), idFor)
  {
  }

  /** As written, the webhook notifies every admin once, all with one id. */
  lemma SimulateFansOut(db: Db, txid: string, t: Tick)
    requires WebhookApplies(db.requests, txid)
    ensures NoticePerTarget(db.notifications, SimulateWebhookPayment(db, txid, t).1.notifications,
                            Filter(db.users, IsAdmin), "Pagamento PIX Recebido",
                            PaymentMessage(db.requests[FindIndex(db.requests, HasTxid(txid)).value].protocol),
                            ConstantId(t.id))
  {
    WebhookFansOut(db, txid, ConstantId(t.id), t);
  }

  /** As written, with two admins or more the notices to the first two
      admins (placed last and last but one, by `SimulateFansOut`) share one
      id, so by `MarkReadSharedId` the first admin opening theirs also marks
      the second admin's read. */
  lemma {:induction false} SharedNoticeIdMarksOtherAdmin(db: Db, txid: string, t: Tick)
    requires WebhookApplies(db.requests, txid)
    requires |Filter(db.users, IsAdmin)| >= 2
    ensures SharedLastTwoIds(db.notifications, SimulateWebhookPayment(db, txid, t).1.notifications,
                             |Filter(db.users, IsAdmin)|)
  {
    SimulateFansOut(db, txid, t);
    FirstTwoNoticesShareId(db.notifications, SimulateWebhookPayment(db, txid, t).1.notifications,
                           Filter(db.users, IsAdmin), "Pagamento PIX Recebido",
                           PaymentMessage(db.requests[FindIndex(db.requests, HasTxid(txid)).value].protocol), t.id);
  }

  /** A fan-out that gives every notice one id gives the first two targets'
      notices the same id. */
  lemma FirstTwoNoticesShareId(before: seq<Notification>, after: seq<Notification>, targets: seq<User>,
                               title: string, message: string, id: string)
    requires NoticePerTarget(before, after, targets, title, message, ConstantId(id))
    requires |targets| >= 2
    ensures SharedLastTwoIds(before, after, |targets|)
  {
    NoticeOwners(before, after, targets, title, message, ConstantId(id));
  }

  /** `n` notices went in front of `before`, and the last two of them (the
      first two targets' notices) carry one id. */
  ghost predicate SharedLastTwoIds(before: seq<Notification>, after: seq<Notification>, n: nat)
  {
    && 2 <= n
    && |after| == |before| + n
    && after[n - 1].id == after[n - 2].id
  }

  /** Marking the i-th notice read marks the j-th too exactly when they share
      an id. */
  lemma MarkReadSharedId(ns: seq<Notification>, i: nat, j: nat)
    requires i < |ns| && j < |ns|
    ensures MarkNotificationRead(ns, ns[i].id)[i].read
    ensures MarkNotificationRead(ns, ns[i].id)[j].read <==> ns[j].read || ns[j].id == ns[i].id
  {
  }

  /** The first two notices of a fan-out go to the first two targets, unread,
      with the ids the id source gave them. */
  lemma NoticeOwners(before: seq<Notification>, after: seq<Notification>, targets: seq<User>,
                     title: string, message: string, idFor: nat -> string)
    requires NoticePerTarget(before, after, targets, title, message, idFor)
    requires |targets| >= 2
    ensures var n := |targets|;
            && |after| == |before| + n
            && after[n - 1].userId == targets[0].id && !after[n - 1].read && after[n - 1].id == idFor(0)
            && after[n - 2].userId == targets[1].id && !after[n - 2].read && after[n - 2].id == idFor(1)
  {
    var n := |targets|;
    assert after[n - 1 - 0] == after[n - 1];
    assert after[n - 1 - 1] == after[n - 2];
  }

  /** The id the source hands out for the `i`-th notice. Stating
      `Injective` through this name, rather than through `idFor(i)`, lets
      its quantifier fire only on the ids a proof compares, not on every
      notice of a fan-out. */
  function IdOf(idFor: nat -> string, i: nat): string
  {
    idFor(i)
  }

  /** An id source that never hands out the same id twice. */
  ghost predicate Injective(idFor: nat -> string)
  {
    forall a: nat, b: nat :: a != b ==> IdOf(idFor, a) != IdOf(idFor, b)
  }

  /** Two notices of one fan-out with an injective id function have
      different ids, and both are unread. */
  lemma NoticeIdsApart(before: seq<Notification>, after: seq<Notification>, targets: seq<User>,
                       title: string, message: string, idFor: nat -> string, i: nat, j: nat)
    requires NoticePerTarget(before, after, targets, title, message, idFor)
    requires Injective(idFor)
    requires i < |targets| && j < |targets| && i != j
    ensures |after| == |before| + |targets|
    ensures after[i].id != after[j].id && !after[i].read && !after[j].read
  {
    var n := |targets|;
    assert after[n - 1 - (n - 1 - i)].id == IdOf(idFor, n - 1 - i);
    assert after[n - 1 - (n - 1 - j)].id == IdOf(idFor, n - 1 - j);
  }

  /** A confirmation on the k-th request with an injective id function
      gives no two admins' notices the same id, and leaves both unread. */
  lemma ConfirmPaidIdsApart(db: Db, k: nat, idFor: nat -> string, t: Tick, i: nat, j: nat)
    requires k < |db.requests|
    requires Injective(idFor)
    requires i < |Filter(db.users, IsAdmin)| && j < |Filter(db.users, IsAdmin)| && i != j
    ensures |ConfirmPaid(db, k, idFor, t).notifications| == |db.notifications| + |Filter(db.users, IsAdmin)|
    ensures var after := ConfirmPaid(db, k, idFor, t).notifications;
            && i < |after| && j < |after|
            && after[i].id != after[j].id && !after[i].read && !after[j].read
  {
    NoticeIdsApart(db.notifications, ConfirmPaid(db, k, idFor, t).notifications, Filter(db.users, IsAdmin),
                   "Pagamento PIX Recebido", PaymentMessage(db.requests[k].protocol), idFor, i, j);
    assert |ConfirmPaid(db, k, idFor, t).notifications| == |db.notifications| + |Filter(db.users, IsAdmin)|;
  }

  /** With distinct notice ids, as `addServiceRequest` draws them, no two
      admins' notices share an id, so by `MarkReadSharedId` marking one read
      leaves every other new notice unread. */
  lemma {:induction false} DistinctNoticeIdsKeepAdminsApart(db: Db, txid: string, idFor: nat -> string, t: Tick,
                                                           i: nat, j: nat)
    requires WebhookApplies(db.requests, txid)
    requires Injective(idFor)
    requires i < |Filter(db.users, IsAdmin)| && j < |Filter(db.users, IsAdmin)| && i != j
    ensures |WebhookPayment(db, txid, idFor, t).1.notifications| == |db.notifications| + |Filter(db.users, IsAdmin)|
    ensures var after := WebhookPayment(db, txid, idFor, t).1.notifications;
            && i < |after| && j < |after|
            && after[i].id != after[j].id && !after[i].read && !after[j].read
  {
    ConfirmPaidIdsApart(db, FindIndex(db.requests, HasTxid(txid)).value, idFor, t, i, j);
  }

  // ----------------------------------------------------------- notifications

  function NotifTimestamp(n: Notification): int
  {
    n.timestamp
  }

  /** `getNotifications(userId)`: that user's notifications, newest first. */
  function GetNotifications(ns: seq<Notification>, userId: string): (r: seq<Notification>)
    ensures forall i :: 0 <= i < |r| ==> r[i].userId == userId
    ensures forall x :: multiset(r)[x] == if x.userId == userId then multiset(ns)[x] else 0
    ensures SortedDesc(r, NotifTimestamp)
  {
    var mine := Filter(ns, (n: Notification) => n.userId == userId);
    var r := SortDesc(mine, NotifTimestamp);
    forall i | 0 <= i < |r| ensures r[i].userId == userId {
      assert multiset(mine)[r[i]] == multiset(r)[r[i]] > 0;
    }
    r
  }

  /** `addNotification(n)`: the new notification goes first. */
  function AddNotification(ns: seq<Notification>, n: Notification): (r: seq<Notification>)
    ensures |r| == |ns| + 1 && r[0] == n && r[1..] == ns
  {
    [n] + ns
  }

  /** `markNotificationRead(id)`: every notification with that id becomes read. */
  function MarkNotificationRead(ns: seq<Notification>, id: string): (r: seq<Notification>)
    ensures |r| == |ns|
    ensures forall i :: 0 <= i < |ns| ==> r[i] == if ns[i].id == id then ns[i].(read := true) else ns[i]
  {
    ReplaceWhere(ns, (n: Notification) => n.id == id, (n: Notification) => n.(read := true))
  }

  /** Marking as read twice is the same as marking once. */
  lemma MarkNotificationReadIdempotent(ns: seq<Notification>, id: string)
    ensures MarkNotificationRead(MarkNotificationRead(ns, id), id) == MarkNotificationRead(ns, id)
  {
  }

  /** `updateNotification(n)`: every notification with the id of `n` becomes `n`. */
  function UpdateNotification(ns: seq<Notification>, n: Notification): (r: seq<Notification>)
    ensures |r| == |ns|
    ensures forall i :: 0 <= i < |ns| ==> r[i] == if ns[i].id == n.id then n else ns[i]
  {
    ReplaceWhere(ns, (x: Notification) => x.id == n.id, (_: Notification) => n)
  }

  /** `deleteNotification(id)`: removes every notification with that id and
      keeps the others in order. */
  function DeleteNotification(ns: seq<Notification>, id: string): (r: seq<Notification>)
    ensures forall i :: 0 <= i < |r| ==> r[i].id != id
    ensures forall x :: multiset(r)[x] == if x.id != id then multiset(ns)[x] else 0
  {
    Filter(ns, (n: Notification) => n.id != id)
  }

  // ------------------------------------------------- categories and types

  /** `addCategory(cat)`: appended unless already present. */
  function AddCategory(cats: seq<string>, cat: string): (r: seq<string>)
    ensures cat in r
    ensures forall c :: c in r <==> c in cats || c == cat
    ensures cat in cats ==> r == cats
    ensures cat !in cats ==> r == cats + [cat]
  {
    if cat in cats then cats else cats + [cat]
  }

  /** `deleteCategory(cat)`: removes that name, keeps the rest in order. */
  function DeleteCategory(cats: seq<string>, cat: string): (r: seq<string>)
    ensures cat !in r
    ensures forall c :: c in r <==> c in cats && c != cat
    ensures forall x :: multiset(r)[x] == if x != cat then multiset(cats)[x] else 0
  {
    Filter(cats, (c: string) => c != cat)
  }

  /** `addRequestType(type)`: appended. */
  function AddRequestType(types: seq<RequestTypeConfig>, t: RequestTypeConfig): (r: seq<RequestTypeConfig>)
    ensures |r| == |types| + 1 && r[..|types|] == types && r[|types|] == t
  {
    types + [t]
  }

  function TypeIdIsNot(id: string): RequestTypeConfig -> bool
  {
    (t: RequestTypeConfig) => t.id != id
  }

  /** `deleteRequestType(id)`: removes the types with that id, keeps the rest in order. */
  function DeleteRequestType(types: seq<RequestTypeConfig>, id: string): (r: seq<RequestTypeConfig>)
    ensures forall i :: 0 <= i < |r| ==> r[i].id != id
    ensures forall x :: multiset(r)[x] == if x.id != id then multiset(types)[x] else 0
  {
    Filter(types, TypeIdIsNot(id))
  }

  /** One type is dropped exactly when it has the id. */
  lemma DeleteRequestTypeOne(x: RequestTypeConfig, id: string)
    ensures DeleteRequestType([x], id) == if x.id == id then [] else [x]
  {
    assert [x][1..] == [];
  }

  /** Deleting a type keeps the catalogue's order: two parts are handled one
      after the other. */
  lemma DeleteRequestTypeKeepsOrder(front: seq<RequestTypeConfig>, back: seq<RequestTypeConfig>, id: string)
    ensures DeleteRequestType(front + back, id) == DeleteRequestType(front, id) + DeleteRequestType(back, id)
  {
    FilterConcat(front, back, TypeIdIsNot(id));
  }
}

=== FILE: request_manager.dfy ===
/** The service-request screen (`components/RequestManager.tsx`). Each event
    handler is a pure function from the selected request to its new value,
    and the inline JSX conditions that decide which buttons are shown are
    lifted into predicates. `Apply` combines them into one step of the
    request's life, from which the reachability, audit-trail and payment
    invariants below are proved. */
module RequestManager {
  import opened Collections
  import opened Types
  import Text
  import MockStore

  // ---------------------------------------------------------------- creation

  /** The fields of the "Nova Solicitação" form. */
  datatype Form = Form(title: string, typeId: string, description: string)

  function TypeHasId(id: string): RequestTypeConfig -> bool
  {
    (t: RequestTypeConfig) => t.id == id
  }

  /** `types.find(t => t.id === formData.typeId)`, as an index. */
  function FindType(types: seq<RequestTypeConfig>, id: string): (k: Option<nat>)
    ensures k.Some? ==> k.value < |types| && types[k.value].id == id
    ensures k.Some? ==> forall j :: 0 <= j < k.value ==> types[j].id != id
    ensures k.None? <==> forall j :: 0 <= j < |types| ==> types[j].id != id
  {
    FindIndex(types, TypeHasId(id))
  }

  /** The payment invariant of a request: free requests never enter the
      payment states and stay 'N/A'; the two payment states carry their own
      payment status; an approved payment is never still awaited. */
  ghost predicate PaymentConsistent(r: ServiceRequest)
  {
    && (r.price <= 0 ==> r.paymentStatus == PayNotApplicable && !AwaitingPayment(r.status))
    && (r.price > 0 ==> r.paymentStatus != PayNotApplicable)
    && (r.status == PendingPayment ==> r.paymentStatus == PayPending)
    && (r.status == PaymentUnderReview ==> r.paymentStatus == PayInReview)
    && (r.paymentStatus == PayApproved ==> !AwaitingPayment(r.status))
  }

  /** `handleCreate`: the request the form produces, or nothing when no
      request type has the chosen id. The price comes from the type and
      decides whether the request starts by awaiting payment. `t` supplies
      the id and the instant, `protocol` the random protocol. */
  function HandleCreate(types: seq<RequestTypeConfig>, form: Form, creator: User, companyId: string,
                        protocol: string, t: Tick): (r: Option<ServiceRequest>)
    ensures r.None? <==> forall j :: 0 <= j < |types| ==> types[j].id != form.typeId
    ensures r.Some? ==> var k := FindType(types, form.typeId).value;
      && r.value.price == types[k].price
      && r.value.kind == types[k].name
    ensures r.Some? ==>
      && (r.value.status == PendingPayment <==> r.value.price > 0)
      && (r.value.status == Requested <==> r.value.price <= 0)
      && (r.value.paymentStatus == PayPending <==> r.value.price > 0)
      && (r.value.paymentStatus == PayNotApplicable <==> r.value.price <= 0)
      && PaymentConsistent(r.value)
    ensures r.Some? ==>
      && !r.value.deleted
      && r.value.chat == []
      && r.value.auditLog == [AuditEntry(t.id, "Solicitação Criada", creator.name, t.now)]
      && r.value.txid.None? && r.value.pixCopiaECola.None? && r.value.pixExpiration.None? && r.value.proofUrl.None?
      && r.value.title == form.title && r.value.description == form.description
      && r.value.clientId == creator.id && r.value.companyId == companyId
      && r.value.createdAt == t.now && r.value.updatedAt == t.now
  {
    match FindType(types, form.typeId)
    case None => None
    case Some(k) =>
      var billable := types[k].price > 0;
      Some(ServiceRequest(
        id := t.id, protocol := protocol, title := form.title, kind := types[k].name,
        price := types[k].price, description := form.description,
        status := if billable then PendingPayment else Requested,
        paymentStatus := if billable then PayPending else PayNotApplicable,
        proofUrl := None, txid := None, pixCopiaECola := None, pixExpiration := None,
        clientId := creator.id, companyId := companyId, createdAt := t.now, updatedAt := t.now,
        deleted := false, chat := [],
        auditLog := [AuditEntry(t.id, "Solicitação Criada", creator.name, t.now)]))
  }

  /** `handleCreate` followed by `addServiceRequest`: a request type that does
      not exist leaves the store as it was; otherwise the new request is put
      first and the admins are notified. */
  function SubmitRequest(db: MockStore.Db, form: Form, types: seq<RequestTypeConfig>, creator: User,
                         companyId: string, protocol: string, idFor: nat -> string, t: Tick): (db': MockStore.Db)
    ensures (forall j :: 0 <= j < |types| ==> types[j].id != form.typeId) ==> db' == db
    ensures (exists j :: 0 <= j < |types| && types[j].id == form.typeId) ==>
      && |db'.requests| == |db.requests| + 1
      && db'.requests[1..] == db.requests
      && db'.requests[0].auditLog == [AuditEntry(t.id, "Solicitação Criada", creator.name, t.now)]
      && PaymentConsistent(db'.requests[0])
  {
    match HandleCreate(types, form, creator, companyId, protocol, t)
    case None => db
    case Some(r) => MockStore.AddServiceRequest(db, r, idFor, t.now)
  }

  // ---------------------------------------------------------------- handlers

  function StatusAction(s: RequestStatus): string
  {
    "Status alterado para " + StatusLabel(s)
  }

  /** `updateStatus(status)`: only the status and the update time change, and
      one 'Status alterado para <status>' entry is logged. */
  function UpdateStatus(r: ServiceRequest, target: RequestStatus, user: string, t: Tick): (r': ServiceRequest)
    ensures r'.status == target && r'.updatedAt == t.now
    ensures r'.auditLog == r.auditLog + [AuditEntry(t.id, StatusAction(target), user, t.now)]
    ensures r'.(status := r.status, updatedAt := r.updatedAt, auditLog := r.auditLog) == r
  {
    r.(status := target, updatedAt := t.now,
       auditLog := r.auditLog + [AuditEntry(t.id, StatusAction(target), user, t.now)])
  }

  const ProofFile: string := "comprovante_mock.pdf"

  /** `handlePaymentProofUpload`: the proof goes under review. */
  function PaymentProofUpload(r: ServiceRequest, user: string, t: Tick): (r': ServiceRequest)
    ensures r'.status == PaymentUnderReview && r'.paymentStatus == PayInReview
    ensures r'.proofUrl == Some(ProofFile) && r'.updatedAt == t.now
    ensures r'.auditLog == r.auditLog + [AuditEntry(t.id, "Comprovante Enviado", user, t.now)]
    ensures r'.(status := r.status, paymentStatus := r.paymentStatus, proofUrl := r.proofUrl,
                updatedAt := r.updatedAt, auditLog := r.auditLog) == r
  {
    r.(status := PaymentUnderReview, paymentStatus := PayInReview, proofUrl := Some(ProofFile), updatedAt := t.now,
       auditLog := r.auditLog + [AuditEntry(t.id, "Comprovante Enviado", user, t.now)])
  }

  /** `confirmPayment`: the admin approves the payment and the workflow starts. */
  function ConfirmPayment(r: ServiceRequest, user: string, t: Tick): (r': ServiceRequest)
    ensures r'.status == Requested && r'.paymentStatus == PayApproved && r'.updatedAt == t.now
    ensures r'.auditLog == r.auditLog + [AuditEntry(t.id, "Pagamento Confirmado pelo Admin", user, t.now)]
    ensures r'.(status := r.status, paymentStatus := r.paymentStatus, updatedAt := r.updatedAt,
                auditLog := r.auditLog) == r
  {
    r.(status := Requested, paymentStatus := PayApproved, updatedAt := t.now,
       auditLog := r.auditLog + [AuditEntry(t.id, "Pagamento Confirmado pelo Admin", user, t.now)])
  }

  /** `openRequest`: an admin opening a 'Solicitada' request marks it viewed
      (without touching the update time); anything else leaves it as it is. */
  function OpenRequest(role: Role, r: ServiceRequest, user: string, t: Tick): (r': ServiceRequest)
    ensures role == Admin && r.status == Requested ==>
      && r'.status == Viewed
      && r'.auditLog == r.auditLog + [AuditEntry(t.id, "Visualizada pelo Admin", user, t.now)]
      && r'.(status := r.status, auditLog := r.auditLog) == r
    ensures !(role == Admin && r.status == Requested) ==> r' == r
  {
    if role == Admin && r.status == Requested then
      r.(status := Viewed, auditLog := r.auditLog + [AuditEntry(t.id, "Visualizada pelo Admin", user, t.now)])
    else r
  }

  /** `sendMsg`: blank input is ignored; otherwise one message carrying the
      sender's role and the text as typed is appended, and nothing else of
      the request changes. */
  function SendMsg(r: ServiceRequest, role: Role, sender: string, text: string, t: Tick): (r': Option<ServiceRequest>)
    ensures r'.None? <==> Text.AllSpace(text)
    ensures r'.Some? ==> r'.value.chat == r.chat + [ChatMessage(t.id, sender, role, text, t.now)]
    ensures r'.Some? ==> r'.value.(chat := r.chat) == r
  {
    Text.TrimEmptyIffAllSpace(text);
    if Text.Trim(text) == "" then None
    else Some(r.(chat := r.chat + [ChatMessage(t.id, sender, role, text, t.now)]))
  }

  // ------------------------------------------------------------------- gates

  /** The resolution workflow as a table of (actor, from, to). */
  const WorkflowTable: set<(Role, RequestStatus, RequestStatus)> := {
    (Admin, Requested, InResolution),
    (Admin, Viewed, InResolution),
    (Admin, InResolution, InValidation),
    (Client, InValidation, Resolved),
    (Client, Resolved, Requested)
  }

  /** The workflow buttons as the screen decides them: none for a deleted
      request or one still awaiting payment; an admin may start resolution
      unless it is already under way, validated or resolved, and may send it
      to validation while in resolution; a client may approve it while in
      validation and reopen it once resolved. */
  function Allowed(role: Role, deleted: bool, status: RequestStatus, target: RequestStatus): (ok: bool)
    ensures ok <==> !deleted && (role, status, target) in WorkflowTable
  {
    if deleted || status == PendingPayment || status == PaymentUnderReview then false
    else match role
      case Admin =>
        || (status != InResolution && status != Resolved && status != InValidation && target == InResolution)
        || (status == InResolution && target == InValidation)
      case Client =>
        || (status == InValidation && target == Resolved)
        || (status == Resolved && target == Requested)
  }

  /** "Pagar Agora", which leads to the proof upload: a client, a priced
      request, awaiting payment. */
  predicate CanPay(role: Role, r: ServiceRequest)
    ensures CanPay(role, r) ==> forall target :: !Allowed(role, r.deleted, r.status, target)
  {
    role == Client && r.price > 0 && r.status == PendingPayment
  }

  /** "Confirmar Pagamento": an admin, a priced request, proof under review. */
  predicate CanConfirmPayment(role: Role, r: ServiceRequest)
    ensures CanConfirmPayment(role, r) ==> forall target :: !Allowed(role, r.deleted, r.status, target)
  {
    role == Admin && r.price > 0 && r.status == PaymentUnderReview
  }

  // ------------------------------------------------------------------ events

  /** Everything that can happen to one request. */
  datatype Event =
    | Open(role: Role)                                // a click on the row or the eye button
    | Workflow(role: Role, target: RequestStatus)     // a workflow button
    | UploadProof(role: Role)                         // "Enviar Comprovante"
    | AdminConfirm(role: Role)                        // "Confirmar Pagamento"
    | WebhookPaid                                     // the bank's webhook for this request's txid
    | PixCharge(charge: MockStore.Charge)             // a generated PIX charge
    | Chat(role: Role, text: string)                  // the chat input
    | Trash(role: Role)                               // the bin button of the active list
    | Restore(role: Role)                             // the restore button of the bin

  /** One event applied to a request. An event the screen does not offer in
      the current state leaves the request unchanged. */
  function Apply(e: Event, r: ServiceRequest, user: string, t: Tick): (r': ServiceRequest)
    ensures r'.id == r.id && r'.price == r.price && r'.createdAt == r.createdAt
    ensures r.auditLog <= r'.auditLog && r.chat <= r'.chat
    ensures |r'.auditLog| <= |r.auditLog| + 1
    ensures r'.status != r.status ==> |r'.auditLog| == |r.auditLog| + 1
  {
    match e
    case Open(role) => OpenRequest(role, r, user, t)
    case Workflow(role, target) =>
      if Allowed(role, r.deleted, r.status, target) then UpdateStatus(r, target, user, t) else r
    case UploadProof(role) => if CanPay(role, r) then PaymentProofUpload(r, user, t) else r
    case AdminConfirm(role) => if CanConfirmPayment(role, r) then ConfirmPayment(r, user, t) else r
    case WebhookPaid => if r.status == PendingPayment && r.txid.Some? then MockStore.WebhookConfirmed(r, t) else r
    case PixCharge(c) => MockStore.WithCharge(r, c, t)
    case Chat(role, text) =>
      if r.deleted then r
      else (match SendMsg(r, role, user, text, t) case None => r case Some(r2) => r2)
    case Trash(role) => if role == Admin && !r.deleted then MockStore.WithDeletedFlag(r, true, user, t) else r
    case Restore(role) => if role == Admin && r.deleted then MockStore.WithDeletedFlag(r, false, user, t) else r
  }

  /** Only a client approving a request in validation resolves it. */
  lemma ResolvedOnlyFromValidation(e: Event, r: ServiceRequest, user: string, t: Tick)
    requires r.status != Resolved && Apply(e, r, user, t).status == Resolved
    ensures r.status == InValidation && e == Workflow(Client, Resolved)
  {
  }

  /** Only the client's proof upload puts a request under payment review, and
      only from 'Pendente Pagamento' on a priced request. */
  lemma ReviewOnlyFromProofUpload(e: Event, r: ServiceRequest, user: string, t: Tick)
    requires r.status != PaymentUnderReview && Apply(e, r, user, t).status == PaymentUnderReview
    ensures e == UploadProof(Client) && r.status == PendingPayment && r.price > 0
  {
  }

  /** A request under payment review leaves it only by the admin's
      confirmation, on a priced request. */
  lemma ReviewLeftOnlyByAdminConfirm(e: Event, r: ServiceRequest, user: string, t: Tick)
    requires r.status == PaymentUnderReview && Apply(e, r, user, t).status != PaymentUnderReview
    ensures e == AdminConfirm(Admin) && r.price > 0
  {
  }

  /** A payment becomes approved only by the admin confirming a proof under
      review, or by the bank's webhook for a request awaiting payment that
      carries a PIX charge's txid. */
  lemma ApprovedOnlyByConfirmation(e: Event, r: ServiceRequest, user: string, t: Tick)
    requires r.paymentStatus != PayApproved && Apply(e, r, user, t).paymentStatus == PayApproved
    ensures || (e == AdminConfirm(Admin) && r.status == PaymentUnderReview && r.price > 0)
            || (e == WebhookPaid && r.status == PendingPayment && r.txid.Some?)
  {
  }

  /** No workflow button moves a request that is deleted or awaiting payment,
      and an admin can never resolve a request directly. */
  lemma WorkflowLockedWhileDeletedOrUnpaid(role: Role, status: RequestStatus, target: RequestStatus)
    ensures !Allowed(role, true, status, target)
    ensures !Allowed(role, false, PendingPayment, target) && !Allowed(role, false, PaymentUnderReview, target)
    ensures !Allowed(Admin, false, status, Resolved)
  {
  }

  /** The status buttons keep the payment invariant: the workflow never
      enters or leaves the payment states, and the payment steps move the
      status and the payment status together. */
  lemma StatusEventsKeepPaymentConsistent(e: Event, r: ServiceRequest, user: string, t: Tick)
    requires e.Open? || e.Workflow? || e.UploadProof? || e.AdminConfirm?
    requires PaymentConsistent(r)
    ensures PaymentConsistent(Apply(e, r, user, t))
  {
  }

  /** The bank's webhook and a generated charge keep the payment invariant. */
  lemma StoreEventsKeepPaymentConsistent(e: Event, r: ServiceRequest, user: string, t: Tick)
    requires e.WebhookPaid? || e.PixCharge?
    requires PaymentConsistent(r)
    ensures PaymentConsistent(Apply(e, r, user, t))
  {
  }

  /** Chat, trash and restore do not touch the payment fields at all. */
  lemma EditEventsKeepPaymentConsistent(e: Event, r: ServiceRequest, user: string, t: Tick)
    requires e.Chat? || e.Trash? || e.Restore?
    requires PaymentConsistent(r)
    ensures PaymentConsistent(Apply(e, r, user, t))
  {
  }

  /** Every event keeps the payment invariant. */
  lemma ApplyKeepsPaymentConsistent(e: Event, r: ServiceRequest, user: string, t: Tick)
    requires PaymentConsistent(r)
    ensures PaymentConsistent(Apply(e, r, user, t))
  {
    if e.Open? || e.Workflow? || e.UploadProof? || e.AdminConfirm? {
      StatusEventsKeepPaymentConsistent(e, r, user, t);
    } else if e.WebhookPaid? || e.PixCharge? {
      StoreEventsKeepPaymentConsistent(e, r, user, t);
    } else {
      EditEventsKeepPaymentConsistent(e, r, user, t);
    }
  }

  // ------------------------------------------------------------------ traces

  datatype Step = Step(event: Event, user: string, tick: Tick)

  /** The request after a sequence of steps: no run changes its id, price
      or creation time. */
  function Run(r: ServiceRequest, steps: seq<Step>): (r': ServiceRequest)
    ensures r'.id == r.id && r'.price == r.price && r'.createdAt == r.createdAt
    decreases |steps|
  {
    if steps == [] then r
    else
      var last := steps[|steps| - 1];
      Apply(last.event, Run(r, steps[..|steps| - 1]), last.user, last.tick)
  }

  /** No prefix of `steps` of length at most `i` leaves the request resolved. */
  ghost predicate NeverResolvedUpTo(r: ServiceRequest, steps: seq<Step>, i: int)
    requires i <= |steps|
  {
    forall j :: 0 <= j <= i ==> Run(r, steps[..j]).status != Resolved
  }

  /** The length of the shortest prefix of `steps`, at least `k` long, after
      which the request is resolved. */
  ghost function FirstResolved(r: ServiceRequest, steps: seq<Step>, k: nat): (m: nat)
    requires k <= |steps| && Run(r, steps).status == Resolved
    ensures k <= m <= |steps| && Run(r, steps[..m]).status == Resolved
    ensures forall j :: k <= j < m ==> Run(r, steps[..j]).status != Resolved
    decreases |steps| - k
  {
    if Run(r, steps[..k]).status == Resolved then k
    else
      assert k < |steps| by { assert steps[..|steps|] == steps; }
      FirstResolved(r, steps, k + 1)
  }

  /** A request that ends resolved without starting so was first resolved
      by the client's approval of a request in validation. */
  lemma {:induction false} ResolvedReachedThroughValidation(r: ServiceRequest, steps: seq<Step>)
    requires r.status != Resolved && Run(r, steps).status == Resolved
    ensures exists i :: && 0 <= i < |steps|
                        && Run(r, steps[..i]).status == InValidation
                        && steps[i].event == Workflow(Client, Resolved)
                        && Run(r, steps[..i + 1]).status == Resolved
                        && NeverResolvedUpTo(r, steps, i)
  {
    assert Run(r, steps[..0]) == r by { assert steps[..0] == []; }
    var m := FirstResolved(r, steps, 0);
    ResolvingStep(r, steps, m - 1);
    assert NeverResolvedUpTo(r, steps, m - 1);
  }

  /** The step that first resolves a request is the client's approval of a
      request in validation. */
  lemma ResolvingStep(r: ServiceRequest, steps: seq<Step>, i: nat)
    requires i < |steps|
    requires Run(r, steps[..i]).status != Resolved && Run(r, steps[..i + 1]).status == Resolved
    ensures Run(r, steps[..i]).status == InValidation && steps[i].event == Workflow(Client, Resolved)
  {
    RunStep(r, steps, i);
    ResolvedOnlyFromValidation(steps[i].event, Run(r, steps[..i]), steps[i].user, steps[i].tick);
  }

  /** Running one step more applies that step to the result so far. */
  lemma RunStep(r: ServiceRequest, steps: seq<Step>, i: nat)
    requires i < |steps|
    ensures Run(r, steps[..i + 1]) == Apply(steps[i].event, Run(r, steps[..i]), steps[i].user, steps[i].tick)
  {
    assert steps[..i + 1][..i] == steps[..i];
  }

  /** Along any run the audit log and the chat only grow, and the log gains
      at most one entry per step. */
  lemma {:induction false} RunOnlyAppends(r: ServiceRequest, steps: seq<Step>)
    ensures r.auditLog <= Run(r, steps).auditLog && r.chat <= Run(r, steps).chat
    ensures |Run(r, steps).auditLog| <= |r.auditLog| + |steps|
    decreases |steps|
  {
    if steps != [] {
      RunOnlyAppends(r, steps[..|steps| - 1]);
    }
  }

  /** The payment invariant holds after any run from a consistent request,
      in particular from one `HandleCreate` produced. */
  lemma {:induction false} RunKeepsPaymentConsistent(r: ServiceRequest, steps: seq<Step>)
    requires PaymentConsistent(r)
    ensures PaymentConsistent(Run(r, steps))
    decreases |steps|
  {
    if steps != [] {
      var last := steps[|steps| - 1];
      RunKeepsPaymentConsistent(r, steps[..|steps| - 1]);
      ApplyKeepsPaymentConsistent(last.event, Run(r, steps[..|steps| - 1]), last.user, last.tick);
    }
  }

  /** A free request never reaches the payment states, whatever happens to it. */
  lemma {:induction false} FreeRequestNeverAwaitsPayment(types: seq<RequestTypeConfig>, form: Form, creator: User, companyId: string,
                                      protocol: string, t: Tick, steps: seq<Step>)
    requires HandleCreate(types, form, creator, companyId, protocol, t).Some?
    requires HandleCreate(types, form, creator, companyId, protocol, t).value.price <= 0
    ensures var r := Run(HandleCreate(types, form, creator, companyId, protocol, t).value, steps);
            !AwaitingPayment(r.status) && r.paymentStatus == PayNotApplicable
  {
    var r := HandleCreate(types, form, creator, companyId, protocol, t).value;
    RunKeepsPaymentConsistent(r, steps);
  }

  // -------------------------------------------------------------------- list

  datatype View = ActiveList | Bin

  /** The company filter `refreshData` passes: a client sees its company, an
      admin sees all companies when 'all' is selected. */
  function CompanyScope(role: Role, currentCompanyId: string): (scope: Option<string>)
    ensures role == Client ==> scope == Some(currentCompanyId)
    ensures scope.None? <==> role == Admin && currentCompanyId == "all"
  {
    match role
    case Client => Some(currentCompanyId)
    case Admin => if currentCompanyId == "all" then None else Some(currentCompanyId)
  }

  /** The search box: title or protocol contains the text, ignoring case. */
  predicate SearchMatches(r: ServiceRequest, text: string)
    ensures text == "" ==> SearchMatches(r, text)
  {
    Text.MatchesIgnoringCase(r.title, text) || Text.MatchesIgnoringCase(r.protocol, text)
  }

  /** The search ignores the case of the typed text. */
  lemma SearchIgnoresCaseOfText(r: ServiceRequest, text: string)
    ensures SearchMatches(r, Text.Lower(text)) == SearchMatches(r, text)
  {
    Text.MatchesIgnoringCaseOfLower(r.title, text);
    Text.MatchesIgnoringCaseOfLower(r.protocol, text);
  }

  /** The active list `refreshData` loads: the non-deleted requests in scope. */
  function ActiveRequests(reqs: seq<ServiceRequest>, scope: Option<string>): (r: seq<ServiceRequest>)
    ensures forall i :: 0 <= i < |r| ==> !r[i].deleted
    ensures scope.Some? && scope.value != "" ==> forall i :: 0 <= i < |r| ==> r[i].companyId == scope.value
    ensures forall x :: x in r ==> x in reqs
  {
    ActiveRequestsFromStore(reqs, scope);
    MockStore.GetServiceRequests(reqs, scope, false)
  }

  lemma ActiveRequestsFromStore(reqs: seq<ServiceRequest>, scope: Option<string>)
    ensures forall x :: x in MockStore.GetServiceRequests(reqs, scope, false) ==> x in reqs
  {
    forall x | x in MockStore.GetServiceRequests(reqs, scope, false) ensures x in reqs {
      MockStore.GetServiceRequestsMembers(reqs, scope, false, x);
    }
  }

  /** What `refreshData` loads for a view: the active requests in scope, or
      the bin, which only an admin loads. */
  function Loaded(reqs: seq<ServiceRequest>, role: Role, currentCompanyId: string, view: View)
    : (r: seq<ServiceRequest>)
    ensures view == ActiveList ==> forall i :: 0 <= i < |r| ==> !r[i].deleted
    ensures view == ActiveList && role == Client && currentCompanyId != "" ==>
      forall i :: 0 <= i < |r| ==> r[i].companyId == currentCompanyId
    ensures view == Bin ==> forall i :: 0 <= i < |r| ==> r[i].deleted
    ensures view == Bin && role == Client ==> r == []
    ensures forall x :: x in r ==> x in reqs
  {
    if view == Bin then (if role == Admin then MockStore.GetDeletedServiceRequests(reqs) else [])
    else ActiveRequests(reqs, CompanyScope(role, currentCompanyId))
  }

  /** The list the screen renders: what was loaded for the view, narrowed by
      the search text. */
  function FilteredList(reqs: seq<ServiceRequest>, role: Role, currentCompanyId: string, view: View, text: string)
    : (r: seq<ServiceRequest>)
    ensures forall i :: 0 <= i < |r| ==> SearchMatches(r[i], text)
    ensures forall x :: x in r <==> x in Loaded(reqs, role, currentCompanyId, view) && SearchMatches(x, text)
  {
    Filter(Loaded(reqs, role, currentCompanyId, view), (x: ServiceRequest) => SearchMatches(x, text))
  }

  /** With an empty search box the active list is the whole listing. */
  lemma EmptySearchShowsEverything(reqs: seq<ServiceRequest>, role: Role, currentCompanyId: string)
    ensures FilteredList(reqs, role, currentCompanyId, ActiveList, "")
         == MockStore.GetServiceRequests(reqs, CompanyScope(role, currentCompanyId), false)
  {
    var shown := MockStore.GetServiceRequests(reqs, CompanyScope(role, currentCompanyId), false);
    FilterAll(shown, (x: ServiceRequest) => SearchMatches(x, ""));
  }
}

=== FILE: routines.dfy ===
/** The monthly routines board (`components/MonthlyRoutines.tsx`): the
    three-way filter over the routine list and the status badge colour. */
module Routines {
  import opened Collections
  import opened Types
  import Text

  /** The department selector: 'Todos' or one department. */
  datatype DeptChoice = AnyDept | OnlyDept(dept: Department)

  /** The selector value that switches the status filter off. */
  const AllStatuses: string := "Todos"

  predicate MatchesDept(r: Routine, choice: DeptChoice)
  {
    choice.AnyDept? || r.department == choice.dept
  }

  predicate MatchesStatus(r: Routine, status: string)
  {
    status == AllStatuses || r.status == status
  }

  /** Title or client name contains the text, ignoring case. */
  predicate MatchesText(r: Routine, text: string)
  {
    Text.MatchesIgnoringCase(r.title, text) || Text.MatchesIgnoringCase(r.clientName, text)
  }

  predicate Kept(r: Routine, dept: DeptChoice, status: string, text: string)
  {
    MatchesDept(r, dept) && MatchesStatus(r, status) && MatchesText(r, text)
  }

  function KeptBy(dept: DeptChoice, status: string, text: string): Routine -> bool
  {
    (r: Routine) => Kept(r, dept, status, text)
  }

  /** `filteredRoutines`: the routines all three filters accept, each as
      often as in the input. */
  function FilteredRoutines(routines: seq<Routine>, dept: DeptChoice, status: string, text: string)
    : (r: seq<Routine>)
    ensures forall i :: 0 <= i < |r| ==> Kept(r[i], dept, status, text)
    ensures forall x :: x in r <==> x in routines && Kept(x, dept, status, text)
    ensures forall x :: multiset(r)[x] == if Kept(x, dept, status, text) then multiset(routines)[x] else 0
  {
    Filter(routines, KeptBy(dept, status, text))
  }

  /** The filter keeps the board's order: filtering two parts and joining
      them is filtering the whole. */
  lemma FilteredRoutinesKeepOrder(front: seq<Routine>, back: seq<Routine>, dept: DeptChoice, status: string, text: string)
    ensures FilteredRoutines(front + back, dept, status, text)
         == FilteredRoutines(front, dept, status, text) + FilteredRoutines(back, dept, status, text)
  {
    FilterConcat(front, back, KeptBy(dept, status, text));
  }

  /** The 'Todos' choices and the empty text accept every routine. */
  lemma {:induction false} DefaultsAcceptAll(r: Routine)
    ensures Kept(r, AnyDept, AllStatuses, "")
  {
    assert Text.MatchesIgnoringCase(r.title, "");
  }

  /** With the initial selections the whole board is shown. */
  lemma DefaultsShowEverything(routines: seq<Routine>)
    ensures FilteredRoutines(routines, AnyDept, AllStatuses, "") == routines
  {
    forall i | 0 <= i < |routines| ensures KeptBy(AnyDept, AllStatuses, "")(routines[i]) {
      DefaultsAcceptAll(routines[i]);
    }
    FilterAll(routines, KeptBy(AnyDept, AllStatuses, ""));
  }

  const DoneColor: string := "bg-emerald-100 text-emerald-700"
  const LateColor: string := "bg-red-100 text-red-700"
  const PendingColor: string := "bg-amber-100 text-amber-700"
  const OtherColor: string := "bg-blue-100 text-blue-700"

  /** `getStatusColor(status)`: the badge classes of a routine status. */
  function StatusColor(status: string): (c: string)
    ensures c in {DoneColor, LateColor, PendingColor, OtherColor}
  {
    if status == "Concluído" then DoneColor
    else if status == "Atrasado" then LateColor
    else if status == "Pendente" then PendingColor
    else OtherColor
  }

  /** The three named statuses get three different badges, and every other
      status, and only those, gets the blue one. */
  lemma StatusColorsDistinguish(s: string)
    ensures StatusColor("Concluído") != StatusColor("Atrasado")
    ensures StatusColor("Concluído") != StatusColor("Pendente")
    ensures StatusColor("Atrasado") != StatusColor("Pendente")
    ensures StatusColor(s) == OtherColor <==> s != "Concluído" && s != "Atrasado" && s != "Pendente"
  {
  }
}

=== FILE: settings.dfy ===
/** The settings screen (`components/SettingsManager.tsx`): document
    categories with their protected defaults, the request-type catalogue and
    the payment configuration. The `confirm` dialogs are a boolean parameter. */
module Settings {
  import opened Collections
  import opened Types
  import Text
  import MockStore
  import RequestManager

  /** The categories the system relies on; the screen offers no delete
      control for them. */
  const ProtectedCategories: seq<string> :=
    ["Boletos", "Impostos", "Folha", "Contratos", "Documentos Solicitados", "Outros"]

  /** The categories the store starts with: exactly the protected ones. */
  const InitialCategories: seq<string> := ProtectedCategories

  ghost predicate NoDuplicates<T>(s: seq<T>)
  {
    forall i, j :: 0 <= i < j < |s| ==> s[i] != s[j]
  }

  ghost predicate HasProtected(cats: seq<string>)
  {
    forall i :: 0 <= i < |ProtectedCategories| ==> ProtectedCategories[i] in cats
  }

  /** Whether the delete button is shown next to a category. */
  predicate CanDeleteCategory(cat: string)
  {
    cat !in ProtectedCategories
  }

  /** `handleAddCategory`: the trimmed name is added unless the input is
      blank or the name is already listed. */
  function HandleAddCategory(cats: seq<string>, input: string): (r: seq<string>)
    ensures Text.AllSpace(input) ==> r == cats
    ensures !Text.AllSpace(input) ==> Text.Trim(input) in r && Text.Trim(input) != ""
    ensures !Text.AllSpace(input) ==> forall c :: c in r <==> c in cats || c == Text.Trim(input)
    ensures cats <= r && |r| <= |cats| + 1
    ensures NoDuplicates(cats) ==> NoDuplicates(r)
  {
    Text.TrimEmptyIffAllSpace(input);
    if Text.Trim(input) == "" then cats else MockStore.AddCategory(cats, Text.Trim(input))
  }

  /** Adding the same name twice is the same as adding it once. */
  lemma HandleAddCategoryIdempotent(cats: seq<string>, input: string)
    ensures HandleAddCategory(HandleAddCategory(cats, input), input) == HandleAddCategory(cats, input)
  {
  }

  /** `handleDeleteCategory`: after confirmation the name is removed. */
  function HandleDeleteCategory(cats: seq<string>, cat: string, confirmed: bool): (r: seq<string>)
    ensures !confirmed ==> r == cats
    ensures confirmed ==> cat !in r && forall c :: c in r <==> c in cats && c != cat
  {
    if confirmed then MockStore.DeleteCategory(cats, cat) else cats
  }

  /** What a user can do on the categories tab: type a name and add it, or
      press the delete button next to a listed category and confirm. */
  datatype CategoryAction = AddCat(input: string) | DeleteCat(cat: string, confirmed: bool)

  /** One action, as the screen allows it: the delete button exists only
      next to a listed, unprotected category. */
  function ApplyCategoryAction(cats: seq<string>, a: CategoryAction): (r: seq<string>)
    ensures HasProtected(cats) ==> HasProtected(r)
    ensures NoDuplicates(cats) ==> NoDuplicates(r)
    ensures |r| <= |cats| + 1
  {
    match a
    case AddCat(input) => HandleAddCategory(cats, input)
    case DeleteCat(cat, confirmed) =>
      if cat in cats && CanDeleteCategory(cat) then
        if confirmed then
          assert NoDuplicates(cats) ==> NoDuplicates(Filter(cats, (c: string) => c != cat)) by {
            if NoDuplicates(cats) { FilterNoDuplicates(cats, (c: string) => c != cat); }
          }
          HandleDeleteCategory(cats, cat, confirmed)
        else cats
      else cats
  }

  /** A sequence of actions, in order; each adds at most one category. */
  function ApplyCategoryActions(cats: seq<string>, actions: seq<CategoryAction>): (r: seq<string>)
    ensures |r| <= |cats| + |actions|
    decreases |actions|
  {
    if actions == [] then cats
    else ApplyCategoryActions(ApplyCategoryAction(cats, actions[0]), actions[1..])
  }

  /** Through the screen the protected categories can never disappear, and
      no name is ever listed twice. */
  lemma {:induction false} CategoriesKeepProtectedAndUnique(cats: seq<string>, actions: seq<CategoryAction>)
    requires HasProtected(cats) && NoDuplicates(cats)
    ensures HasProtected(ApplyCategoryActions(cats, actions))
    ensures NoDuplicates(ApplyCategoryActions(cats, actions))
    decreases |actions|
  {
    if actions != [] {
      CategoriesKeepProtectedAndUnique(ApplyCategoryAction(cats, actions[0]), actions[1..]);
    }
  }

  /** Filtering keeps a sequence free of duplicates. */
  lemma {:induction false} FilterNoDuplicates<T(!new)>(s: seq<T>, keep: T -> bool)
    requires NoDuplicates(s)
    ensures NoDuplicates(Filter(s, keep))
  {
    if s != [] {
      FilterNoDuplicates(s[1..], keep);
      var rest := Filter(s[1..], keep);
      assert s[0] !in s[1..] by {
        forall j | 0 <= j < |s[1..]| ensures s[1..][j] != s[0] {
          assert s[1..][j] == s[j + 1];
        }
      }
      assert s[0] !in rest;
    }
  }

  /** The store's initial categories include every protected one. */
  lemma InitialCategoriesProtected()
    ensures HasProtected(InitialCategories) && NoDuplicates(InitialCategories)
  {
  }

  /** `handleAddRequestType`: a blank name is ignored; otherwise one type with
      the trimmed name, the entered price and the new id is appended. */
  function HandleAddRequestType(types: seq<RequestTypeConfig>, name: string, price: int, id: string)
    : (r: seq<RequestTypeConfig>)
    ensures Text.AllSpace(name) ==> r == types
    ensures !Text.AllSpace(name) ==>
      && |r| == |types| + 1 && r[..|types|] == types
      && r[|types|].id == id && r[|types|].price == price
      && r[|types|].name == Text.Trim(name) && r[|types|].name != ""
  {
    Text.TrimEmptyIffAllSpace(name);
    if Text.Trim(name) == "" then types
    else MockStore.AddRequestType(types, RequestTypeConfig(id, Text.Trim(name), price))
  }

  /** A type just added can be chosen on the creation form: a request made
      with it is created, and when its id is new it carries the entered price. */
  lemma AddedTypeCanBeRequested(types: seq<RequestTypeConfig>, name: string, price: int, id: string,
                                form: RequestManager.Form, creator: User, companyId: string,
                                protocol: string, t: Tick)
    requires !Text.AllSpace(name) && form.typeId == id
    ensures var created := RequestManager.HandleCreate(HandleAddRequestType(types, name, price, id),
                                                       form, creator, companyId, protocol, t);
            && created.Some?
            && ((forall j :: 0 <= j < |types| ==> types[j].id != id) ==> created.value.price == price)
  {
    var r := HandleAddRequestType(types, name, price, id);
    assert r[|types|].id == id;
    if forall j :: 0 <= j < |types| ==> types[j].id != id {
      var k := RequestManager.FindType(r, id).value;
      assert k == |types|;
    }
  }

  /** `handleDeleteRequestType`: after confirmation every type with that id
      is removed and the rest keep their order. */
  function HandleDeleteRequestType(types: seq<RequestTypeConfig>, id: string, confirmed: bool)
    : (r: seq<RequestTypeConfig>)
    ensures !confirmed ==> r == types
    ensures confirmed ==> forall i :: 0 <= i < |r| ==> r[i].id != id
    ensures confirmed ==> forall x :: multiset(r)[x] == if x.id != id then multiset(types)[x] else 0
  {
    if confirmed then MockStore.DeleteRequestType(types, id) else types
  }

  /** The confirmed deletion keeps the catalogue's order: deleting from two
      parts one after the other is deleting from the whole. */
  lemma HandleDeleteRequestTypeKeepsOrder(front: seq<RequestTypeConfig>, back: seq<RequestTypeConfig>, id: string)
    ensures HandleDeleteRequestType(front + back, id, true)
         == HandleDeleteRequestType(front, id, true) + HandleDeleteRequestType(back, id, true)
  {
    MockStore.DeleteRequestTypeKeepsOrder(front, back, id);
  }

  /** Once a type is deleted no new request can be made with it. */
  lemma DeletedTypeCannotBeRequested(types: seq<RequestTypeConfig>, form: RequestManager.Form, creator: User,
                                     companyId: string, protocol: string, t: Tick)
    ensures RequestManager.HandleCreate(HandleDeleteRequestType(types, form.typeId, true),
                                        form, creator, companyId, protocol, t).None?
  {
  }

  /** `handlePaymentSave`: the edited configuration replaces the stored one
      whole; nothing else in the store changes. */
  function HandlePaymentSave(db: MockStore.Db, cfg: PaymentConfig): (db': MockStore.Db)
    ensures db'.payment == cfg
    ensures db'.(payment := db.payment) == db
  {
    db.(payment := cfg)
  }

  /** The certificate's upload and remove controls: only the flag changes. */
  function SetCertificate(cfg: PaymentConfig, uploaded: bool): (r: PaymentConfig)
    ensures r.inter.certificateUploaded == uploaded
    ensures r.(inter := r.inter.(certificateUploaded := cfg.inter.certificateUploaded)) == cfg
  {
    cfg.(inter := cfg.inter.(certificateUploaded := uploaded))
  }

  /** After removing the certificate and saving, no PIX charge can be
      generated; with a client id and the certificate back, one can. */
  lemma CertificateDecidesCharges(db: MockStore.Db, cfg: PaymentConfig, reqId: string, txid: string, t: Tick)
    ensures MockStore.GeneratePixCharge(HandlePaymentSave(db, SetCertificate(cfg, false)), reqId, txid, t).Err?
    ensures cfg.inter.clientId != "" ==>
      MockStore.GeneratePixCharge(HandlePaymentSave(db, SetCertificate(cfg, true)), reqId, txid, t).Ok?
  {
  }
}

=== FILE: text.dfy ===
/** The string operations the portal's input handling relies on:
    JavaScript's `trim`, `toLowerCase` and `includes`. */
module Text {

  /** The characters `String.prototype.trim` removes: white space and line
      terminators. */
  predicate IsSpace(c: char)
    ensures IsSpace(c) ==> !('a' <= c <= 'z' || 'A' <= c <= 'Z' || '0' <= c <= '9')
  {
    || c == ' ' || '\t' <= c <= '\r'
    || c == '\U{00A0}' || c == '\U{1680}' || '\U{2000}' <= c <= '\U{200A}'
    || c == '\U{2028}' || c == '\U{2029}' || c == '\U{202F}' || c == '\U{205F}'
    || c == '\U{3000}' || c == '\U{FEFF}'
  }

  /** Every character at positions `lo` up to `hi` is white space. */
  ghost predicate SpaceBetween(s: string, lo: int, hi: int)
  {
    forall i :: lo <= i < hi && 0 <= i < |s| ==> IsSpace(s[i])
  }

  ghost predicate AllSpace(s: string)
  {
    SpaceBetween(s, 0, |s|)
  }

  /** Number of white-space characters starting at position `from`. */
  function LeadingSpace(s: string, from: nat): (n: nat)
    requires from <= |s|
    ensures from + n <= |s|
    ensures SpaceBetween(s, from, from + n)
    ensures from + n < |s| ==> !IsSpace(s[from + n])
    decreases |s| - from
  {
    if from == |s| || !IsSpace(s[from]) then 0
    else LeadingSpace(s, from + 1) + 1
  }

  /** Number of white-space characters ending the string, not counting any
      before position `low`. */
  function TrailingSpace(s: string, low: nat): (n: nat)
    requires low <= |s|
    ensures low + n <= |s|
    ensures SpaceBetween(s, |s| - n, |s|)
    ensures low + n < |s| ==> !IsSpace(s[|s| - n - 1])
    decreases |s| - low
  {
    if low == |s| || !IsSpace(s[|s| - 1]) then 0
    else
      var k := TrailingSpace(s[..|s| - 1], low);
      assert forall i :: |s| - 1 - k <= i < |s| - 1 ==> s[..|s| - 1][i] == s[i];
      k + 1
  }

  /** `s.trim()`: the input without its leading and trailing white space. */
  function Trim(s: string): (r: string)
    ensures |r| <= |s|
    ensures r != [] ==> !IsSpace(r[0]) && !IsSpace(r[|r| - 1])
    ensures exists i :: 0 <= i <= |s| - |r| && r == s[i..i + |r|] && SpaceBetween(s, 0, i) && SpaceBetween(s, i + |r|, |s|)
  {
    var lead := LeadingSpace(s, 0);
    var trail := TrailingSpace(s, lead);
    var r := s[lead..|s| - trail];
    assert r != [] ==> r[0] == s[lead] && r[|r| - 1] == s[|s| - trail - 1];
    assert r == s[lead..lead + |r|];
    r
  }

  /** A string is blank, and `!s.trim()` holds, exactly when every character
      is white space. */
  lemma TrimEmptyIffAllSpace(s: string)
    ensures Trim(s) == [] <==> AllSpace(s)
  {
    var lead := LeadingSpace(s, 0);
    var trail := TrailingSpace(s, lead);
    assert Trim(s) == s[lead..|s| - trail];
    assert lead < |s| ==> !IsSpace(s[lead]);
  }

  /** Trimming twice changes nothing more. */
  lemma TrimIdempotent(s: string)
    ensures Trim(Trim(s)) == Trim(s)
  {
    var r := Trim(s);
    if r != [] {
      assert LeadingSpace(r, 0) == 0;
      assert TrailingSpace(r, 0) == 0;
      assert r[0..|r|] == r;
    }
  }

  /** Lower-casing of one character: ASCII and Latin-1 capitals. The
      result is never such a capital, and a letter stays a letter. */
  function LowerChar(c: char): (d: char)
    ensures !('A' <= d <= 'Z') && !('\U{00C0}' <= d <= '\U{00DE}' && d != '\U{00D7}')
    ensures 'A' <= c <= 'Z' <==> 'a' <= d <= 'z' && c != d
  {
    if 'A' <= c <= 'Z' || ('\U{00C0}' <= c <= '\U{00DE}' && c != '\U{00D7}') then (c as int + 32) as char
    else c
  }

  /** `s.toLowerCase()`. */
  function Lower(s: string): (r: string)
    ensures |r| == |s|
    ensures forall i :: 0 <= i < |s| ==> r[i] == LowerChar(s[i])
  {
    if s == [] then [] else [LowerChar(s[0])] + Lower(s[1..])
  }

  /** Lower-casing an already lower-cased string changes nothing. */
  lemma LowerIdempotent(s: string)
    ensures Lower(Lower(s)) == Lower(s)
  {
  }

  /** Whether `needle` occurs in `hay` as a contiguous block. */
  ghost predicate OccursAt(hay: string, needle: string, i: int)
  {
    0 <= i && i + |needle| <= |hay| && hay[i..i + |needle|] == needle
  }

  /** `hay.includes(needle)`: is `needle` a prefix of some suffix of `hay`? */
  function Contains(hay: string, needle: string): bool
    decreases |hay|
  {
    needle <= hay || (hay != [] && Contains(hay[1..], needle))
  }

  /** `Contains` finds exactly the positions where the needle occurs. */
  lemma {:induction false} ContainsIffOccurs(hay: string, needle: string)
    ensures Contains(hay, needle) <==> exists i :: OccursAt(hay, needle, i)
    decreases |hay|
  {
    PrefixIffOccursAtStart(hay, needle);
    if needle <= hay {
    } else if hay != [] {
      ContainsIffOccurs(hay[1..], needle);
      if Contains(hay[1..], needle) {
        var i :| OccursAt(hay[1..], needle, i);
        OccursInTail(hay, needle, i);
      } else {
        NoneInTail(hay, needle);
      }
    }
  }

  /** A prefix is an occurrence at position 0. */
  lemma PrefixIffOccursAtStart(hay: string, needle: string)
    ensures needle <= hay <==> OccursAt(hay, needle, 0)
  {
  }

  /** An occurrence in the tail is one in the string, a position further. */
  lemma OccursInTail(hay: string, needle: string, i: int)
    requires hay != [] && OccursAt(hay[1..], needle, i)
    ensures OccursAt(hay, needle, i + 1)
  {
    TailSlice(hay, i + 1, |needle|);
  }

  /** With no occurrence at the start nor in the tail, there is none. */
  lemma NoneInTail(hay: string, needle: string)
    requires hay != [] && !OccursAt(hay, needle, 0)
    requires forall i :: !OccursAt(hay[1..], needle, i)
    ensures forall i :: !OccursAt(hay, needle, i)
  {
    forall i | 0 < i && i + |needle| <= |hay| ensures !OccursAt(hay, needle, i) {
      TailSlice(hay, i, |needle|);
      assert !OccursAt(hay[1..], needle, i - 1);
    }
  }

  /** A block of the tail of a string is the block one further right in the
      string itself. */
  lemma TailSlice(hay: string, i: int, n: nat)
    requires 0 < i && i + n <= |hay|
    ensures hay[1..][i - 1..i - 1 + n] == hay[i..i + n]
  {
    var tail := hay[1..];
    var left, right := tail[i - 1..i - 1 + n], hay[i..i + n];
    forall k | 0 <= k < n ensures left[k] == right[k] {
      assert left[k] == tail[i - 1 + k] == hay[i + k];
    }
  }

  /** The empty text occurs in every string, so an empty search matches all. */
  lemma ContainsEmpty(hay: string)
    ensures Contains(hay, "")
  {
  }

  /** The case-insensitive search `Lower(hay).includes(Lower(text))` used by
      the portal's lists. */
  function MatchesIgnoringCase(hay: string, text: string): (b: bool)
    ensures text == "" ==> b
  {
    ContainsEmpty(Lower(hay));
    Contains(Lower(hay), Lower(text))
  }

  /** Searching for a text or for its lower-cased form gives the same answer. */
  lemma MatchesIgnoringCaseOfLower(hay: string, text: string)
    ensures MatchesIgnoringCase(hay, Lower(text)) == MatchesIgnoringCase(hay, text)
  {
    LowerIdempotent(text);
  }
}

=== FILE: types.dfy ===
/** The entities of the accounting portal's service-request subsystem
    (`types.ts`). Timestamps are integers (milliseconds); identifiers,
    protocols and transaction ids are opaque strings supplied by the caller. */
module Types {
  import opened Collections

  type Timestamp = int

  /** The `Date.now()` value a handler reads: the id it stamps on a new log
      entry or message and the instant it records. */
  datatype Tick = Tick(id: string, now: Timestamp)

  datatype Role = Admin | Client

  datatype RequestStatus =
    | PendingPayment      // 'Pendente Pagamento'
    | PaymentUnderReview  // 'Pagamento em Análise'
    | Requested           // 'Solicitada'
    | Viewed              // 'Visualizada'
    | InResolution        // 'Em Resolução'
    | InValidation        // 'Em Validação'
    | Resolved            // 'Resolvido'

  datatype PaymentStatus =
    | PayPending          // 'Pendente'
    | PayInReview         // 'Em Análise'
    | PayApproved         // 'Aprovado'
    | PayNotApplicable    // 'N/A'

  /** The label the portal stores and shows for a status. */
  function StatusLabel(s: RequestStatus): string
  {
    match s
    case PendingPayment => "Pendente Pagamento"
    case PaymentUnderReview => "Pagamento em Análise"
    case Requested => "Solicitada"
    case Viewed => "Visualizada"
    case InResolution => "Em Resolução"
    case InValidation => "Em Validação"
    case Resolved => "Resolvido"
  }

  /** Statuses during which the resolution workflow is locked behind payment. */
  predicate AwaitingPayment(s: RequestStatus)
  {
    s == PendingPayment || s == PaymentUnderReview
  }

  datatype ChatMessage = ChatMessage(id: string, sender: string, role: Role, text: string, timestamp: Timestamp)

  datatype AuditEntry = AuditEntry(id: string, action: string, user: string, timestamp: Timestamp)

  /** A service request. `kind` is the source's `type` field (the name of the
      request type at creation time). `txid`, `pixCopiaECola` and
      `pixExpiration` are assigned by the PIX charge and are absent before. */
  datatype ServiceRequest = ServiceRequest(
    id: string,
    protocol: string,
    title: string,
    kind: string,
    price: int,
    description: string,
    status: RequestStatus,
    paymentStatus: PaymentStatus,
    proofUrl: Option<string>,
    txid: Option<string>,
    pixCopiaECola: Option<string>,
    pixExpiration: Option<Timestamp>,
    clientId: string,
    companyId: string,
    createdAt: Timestamp,
    updatedAt: Timestamp,
    deleted: bool,
    chat: seq<ChatMessage>,
    auditLog: seq<AuditEntry>)

  datatype Notification = Notification(id: string, userId: string, title: string, message: string, read: bool, timestamp: Timestamp)

  /** A portal user; e-mail, password, photo, address and phone play no
      part in the modelled operations. */
  datatype User = User(id: string, name: string, role: Role, companyId: Option<string>)

  datatype RequestTypeConfig = RequestTypeConfig(id: string, name: string, price: int)

  datatype InterConfig = InterConfig(clientId: string, clientSecret: string, certificateUploaded: bool, pixKey: string)

  datatype PaymentConfig = PaymentConfig(enablePix: bool, enableGateway: bool, inter: InterConfig)

  datatype Department = Contabil | Fiscal | Pessoal | Legalizacao

  datatype Routine = Routine(id: string, title: string, clientName: string, department: Department,
                             deadline: string, status: string, competence: string)
}
